=== FILE: README.md ===
# Sale-contract chaincodes of a healthcare ledger, modelled in Dafny

The repository has two Hyperledger Fabric chaincodes, `pharmacy` and `doctor`. Each one stores sale contracts in the ledger's world state, keyed by the contract's token. Each also keeps a secondary index from a patient address to that patient's tokens. The index is a set of Fabric composite keys `("patient~token", [patientAddress, token])`, each holding the single byte 0x00. Each chaincode has three operations:

- `Send` checks the argument count, then makes two writes: first the JSON record, then the index entry.
- `QueryByPatientAddress` scans the index entries of one patient with `GetStateByPartialCompositeKey`. For each entry it splits the composite key, reads the record for the token, and appends `{"Token":"t", "Contract":<record>}` to a buffer. A `firstToken` flag places the commas, and the result is a JSON array.
- `Invoke` dispatches `"send"` and `"query"`. Any other name succeeds with an empty payload.

The two chaincodes run the same algorithm and differ in two ways:

- The pharmacy record has four fields (`token`, `patientAddress`, `pharmacyAddress`, `medicationSold`). The doctor record has three.
- The pharmacy query closes its iterator before a successful return. The doctor query never closes it.

The model is written once, in `SaleContract`, over a `Shape`. A shape holds the record's json tags and whether the query closes its iterator. `Pharmacy` and `Doctor` instantiate it.

The modules are:

- **`Ledger`**: the stub as a class `Stub` whose field `state: map<string, string>` is the world state. It has:
  - `PutState`, `GetState`, and `GetStateByPartialCompositeKey`;
  - a `StateIterator` class with `HasNext`, `Next`, and `Close`.

  A partial-key scan returns the keys in `[P, P + U+10FFFF)` in ascending order. It does this with a selection loop proved equal to the ghost enumeration `Ascending`.
- **`CompositeKey`**: Fabric's composite-key layout, written out concretely. A key is U+0000, then the object type, then each attribute, each part followed by U+0000. An attribute holding U+0000 or U+10FFFF is rejected. The module has `CreateCompositeKey`, `SplitCompositeKey` and their round trip.
- **`Lexicographic`**: the key order the state database scans in.
- **`Json`**: `json.Marshal` for a struct of string fields, with Go's string escaping (HTML escapes included). It also has `ReadRecord`, a strict reader of exactly the layout `json.Marshal` writes, and their round trip.
- **`Decimal`**: `strconv.Itoa` for argument counts.
- **`QueryOutput`**: the text the query's buffer holds. It includes a reader for it, which shows when the array is well formed.
- **`SaleContract`**: the operations, each in two forms:
  - as functions of the state before (`SendSpec`, `QuerySpec`);
  - as methods on the stub, proved equal to those functions.

  `WriteEntries` is the query's loop, with its invariants. `NextEntry` is the reading part of one iteration. `StepAt` and `TokensFrom` describe the loop as functions.
- **`PatientIndex`**: what the index guarantees across operations. A committed `Send` keeps it well formed. On a well-formed ledger, a query lists exactly the patient's indexed tokens, in scan order, with their records.
- **`Pharmacy`** and **`Doctor`**: the two chaincodes, their `Contract` types, and concrete scenarios.

Failures of stub calls come from the Fabric peer, which is not part of this model. They are a `Faults` parameter, which says which call of the transaction fails and with what error text. A Go runtime panic of the chaincode is the response `Panic`.

## Model

| member | source | states |
|---|---|---|
| Pharmacy.ContractOf | chaincode/new/pharmacy/chaincode.go:54-59 | the contract built by Send holds the four arguments as token, patientAddress, pharmacyAddress, medicationSold, in that order |
| Pharmacy.Serialize | chaincode/new/pharmacy/chaincode.go:62 | the bytes json.Marshal writes for a contract read back as that contract, so different contracts never serialize to the same bytes |
| Pharmacy.SendArity | chaincode/new/pharmacy/chaincode.go:50-52 | Send with other than 4 arguments answers "Wrong number of arguments! Expected 4 but got n", where n is the count in decimal, and leaves the ledger exactly as it was. Its helper Pharmacy.ArityMessage spells out that text |
| Pharmacy.SendStores | chaincode/new/pharmacy/chaincode.go:54-89 | on success, the ledger under the token and the response payload are the same bytes: the serialization of the contract built from the arguments, which reads back as that contract. The index key (patientAddress, token) holds the single byte 0x00 |
| Pharmacy.Send | chaincode/new/pharmacy/chaincode.go:49-90 | the response and the new ledger of the imperative Send are those of SaleContract.SendSpec for the pharmacy shape |
| Pharmacy.QueryByPatientAddress | chaincode/new/pharmacy/chaincode.go:96-156 | the response is SaleContract.QuerySpec of the ledger, which the query does not modify. It returns the iterator it opened, a fresh one over the patient's scan range, exactly when there is one argument, a valid address and a scan that opened. That iterator ends closed exactly when the query succeeds: the error returns inside the loop leave it open |
| Pharmacy.Invoke | chaincode/new/pharmacy/chaincode.go:29-40 | "send" behaves as Send and "query" as the query, leaving the ledger unchanged. Every other name answers success with an empty payload and changes nothing |
| Pharmacy.TwoPatients | chaincode/new/pharmacy/chaincode.go:49-156 | after two sales to two patients on an empty ledger, each patient's query returns a one-element array with only that patient's contract |
| Doctor.ContractOf | chaincode/default/doctor/chaincode.go:40-44 | the contract built by Send holds the three arguments as token, patientAddress, medicationSold, in that order |
| Doctor.Serialize | chaincode/default/doctor/chaincode.go:46 | the bytes json.Marshal writes for a contract read back as that contract, so different contracts never serialize to the same bytes |
| Doctor.SendArity | chaincode/default/doctor/chaincode.go:36-38 | Send with other than 3 arguments answers "Wrong number of arguments! Expected 3 but got n" and leaves the ledger exactly as it was. Its helper Doctor.ArityMessage spells out that text |
| Doctor.SendStores | chaincode/default/doctor/chaincode.go:40-70 | on success, the ledger under the token and the payload are the serialization of the contract built from the arguments, which reads back as that contract. The index key holds 0x00 |
| Doctor.Send | chaincode/default/doctor/chaincode.go:35-71 | the response and the new ledger are those of SaleContract.SendSpec for the doctor shape |
| Doctor.QueryByPatientAddress | chaincode/default/doctor/chaincode.go:73-126 | the response is SaleContract.QuerySpec of the unmodified ledger. It returns the iterator it opened, a fresh one over the patient's scan range, exactly when there is one argument, a valid address and a scan that opened. That iterator is never closed, on any path |
| Doctor.Invoke | chaincode/default/doctor/chaincode.go:22-33 | "send" and "query" run those operations. Any other name answers success with an empty payload and leaves the ledger unchanged |
| Doctor.OnePatient | chaincode/default/doctor/chaincode.go:35-126 | sending ("tok1", "addrA", "drugX") on an empty ledger, then querying "addrA", returns a one-element array holding tok1 with its serialized contract |
| Doctor.RecordRemoved | chaincode/default/doctor/chaincode.go:102-119 | with tok1's record removed and its index entry kept, the query for "addrA" still succeeds and lists tok1 with an empty Contract value |
| SaleContract.SendSpec | chaincode/new/pharmacy/chaincode.go:49-90 | These facts hold for either shape.<br>- A wrong arity is reported before any write.<br>- Only the token key and the index key can change.<br>- An empty token is refused by PutState with "key must not be an empty string", and nothing is written.<br>- Any other failed record write leaves the ledger unchanged.<br>- Once the record is written it stays, even when the index step fails; that failure is reported with the index error text.<br>- Success holds exactly when: the arity is right, the token is not empty, neither write fails, and both the token and the patient address are valid composite-key attributes.<br>- On success the payload is the stored record and reads back as the arguments. The index key holds 0x00 and splits back into (patientAddress, token). The new ledger is the old one with exactly those two writes |
| SaleContract.Send | chaincode/new/pharmacy/chaincode.go:49-90 | the imperative Send on the stub, with its two PutState calls, yields the response and the ledger that SendSpec describes |
| SaleContract.QueryArity | chaincode/new/pharmacy/chaincode.go:97-99 | a query with other than one argument answers "Wrong number of arguments! Expected 1 but got n". Its helper SaleContract.QueryArityMessage spells out that text |
| SaleContract.QuerySpec | chaincode/new/pharmacy/chaincode.go:96-156 | the wrong arity and an invalid patient address are reported before the scan, with their messages. A success needs one valid argument and a scan that did not fail, and its payload is bracketed by "[" and "]" |
| SaleContract.StepAt | chaincode/new/pharmacy/chaincode.go:117-133 | one iteration emits exactly when Next and GetState succeed and the key splits into at least two attributes, and it then emits the second attribute. An iteration that stops the query never answers success |
| SaleContract.TokensFrom | chaincode/new/pharmacy/chaincode.go:116-150 | the loop from iteration i either emits one token per remaining key or stops with a response that is not a success |
| SaleContract.LoopOutcome | chaincode/new/pharmacy/chaincode.go:116-150 | the loop finishes exactly when every remaining iteration emits, and then the emitted tokens are those of the iterations, in key order |
| SaleContract.LoopHalts | chaincode/new/pharmacy/chaincode.go:116-133 | when the loop stops, it stops at an iteration that halts with exactly the returned response, and every earlier iteration emitted |
| SaleContract.Respond | chaincode/new/pharmacy/chaincode.go:151-155 | a stopped loop answers its stopping response unchanged. A finished loop answers success with a payload that opens with "[" and closes with "]" |
| SaleContract.NextEntry | chaincode/new/pharmacy/chaincode.go:117-133 | the reads of one iteration (Next, SplitCompositeKey, compositeKeyArgs[1], GetState) give the token and the bytes stored under it exactly when StepAt emits that token, and otherwise StepAt's stopping response. A failed Next leaves the iterator where it was; once Next succeeds the iterator has advanced by one, even when the split or GetState then stops the query. The closed flag is untouched |
| SaleContract.EmitStep | chaincode/new/pharmacy/chaincode.go:116-150 | an iteration that reads a token keeps the loop's account true: the tokens emitted so far, followed by those the remaining keys will emit, are the tokens of the whole scan |
| SaleContract.HaltStep | chaincode/new/pharmacy/chaincode.go:117-133 | an iteration that stops the loop (Next or GetState failing, or the split key being too short) decides the whole query's response |
| SaleContract.BufferStep | chaincode/new/pharmacy/chaincode.go:136-149 | writing a comma only when firstToken is false, then the element, keeps the buffer equal to "[" followed by the elements emitted so far, joined by commas. Its helpers: QueryOutput.JoinSnoc (one more item adds a comma exactly when items were already there) and SaleContract.ElementWrites (the seven buffer writes of one element append ObjectText) |
| SaleContract.WriteEntries | chaincode/new/pharmacy/chaincode.go:111-155 | the loop over a fresh iterator answers Respond of the scan's outcome. That is either the first stopping response, or "[" + the elements of all emitted tokens, comma-separated + "]", with each token's current record bytes. It closes the iterator exactly when the shape closes and the loop succeeded |
| SaleContract.QueryByPatientAddress | chaincode/new/pharmacy/chaincode.go:96-156 | the imperative query answers QuerySpec of the ledger, and its frame keeps the ledger unmodified. It opens an iterator, and returns it, exactly when the argument count is one, the address is a valid attribute and the scan does not fail; that iterator is fresh and runs over PatientScan. It is closed exactly when the shape closes and the response is a success |
| SaleContract.Route | chaincode/new/pharmacy/chaincode.go:32-37 | the dispatch picks Send exactly for "send" and the query exactly for "query" |
| SaleContract.Invoke | chaincode/new/pharmacy/chaincode.go:29-40 | Invoke runs the routed operation with the parameters. An unknown name answers success with an empty payload and leaves the ledger unchanged |
| PatientIndex.IndexKeyIsEntry | chaincode/new/pharmacy/chaincode.go:76 | the key Send builds for valid attributes lies under the index namespace, splits as a two-attribute index entry, and names the sent token |
| PatientIndex.ValidOutsideIndex | chaincode/new/pharmacy/chaincode.go:69 | a token that is a valid attribute never lies under the index namespace, so the record write cannot disturb the index |
| PatientIndex.SendKeepsIndex | chaincode/new/pharmacy/chaincode.go:69-87 | whichever of Send's writes happen, a ledger whose index namespace holds only index entries still holds only index entries afterwards. This needs the token not to be under that namespace |
| PatientIndex.EntryInRange | chaincode/new/pharmacy/chaincode.go:104 | the index key of any valid token for the patient lies inside the range that the patient's partial-key scan covers |
| PatientIndex.InRangeIsEntry | chaincode/new/pharmacy/chaincode.go:104 | on a well-formed ledger, every key in the scanned range is the index key of this patient and of a valid token. Tokens indexed under a different patient are never visited |
| PatientIndex.ScanIsPatientEntries | chaincode/new/pharmacy/chaincode.go:104-126 | the keys the scan visits are exactly the patient's index entries, in both directions |
| PatientIndex.IndexedTokens | chaincode/new/pharmacy/chaincode.go:104-150 | the tokens of the patient's index entries, in scan order. A token is listed exactly when it is valid and its index key for the patient is in the ledger, and the listed index keys are strictly ascending |
| PatientIndex.TokensOfEntries | chaincode/new/pharmacy/chaincode.go:116-150 | with no stub failure, the loop over keys that are all index entries emits the token of each key in order and never stops early. Split's ignored error and compositeKeyArgs[1] are then harmless |
| PatientIndex.QueryListsIndex | chaincode/new/pharmacy/chaincode.go:96-156 | on a well-formed ledger, a query for a valid patient address without stub failures succeeds. It returns the array of exactly the patient's indexed tokens, in scan order, each with its record bytes |
| PatientIndex.QueryEmptyIff | chaincode/new/pharmacy/chaincode.go:111-155 | that query answers exactly "[]" if and only if no valid token is indexed under the patient |
| PatientIndex.SendThenQuery | chaincode/new/pharmacy/chaincode.go:49-156 | after a successful Send on a well-formed ledger, the ledger is still well formed. Its patient's query lists the sent token, whose record is the serialized arguments |
| PatientIndex.IndexKeyMatch | chaincode/new/pharmacy/chaincode.go:76 | two index keys of valid pairs are equal exactly when the pairs are equal, and every index key starts with U+0000 |
| PatientIndex.QueryOfOneEntry | chaincode/new/pharmacy/chaincode.go:96-156 | a patient with a single indexed token gets "[" + that token's element + "]": no comma and no other element |
| PatientIndex.TwoSendsLedger | chaincode/new/pharmacy/chaincode.go:69-83 | two successful sends on an empty ledger leave exactly the two records and the two index entries, and a well-formed index |
| PatientIndex.TwoSends | chaincode/new/pharmacy/chaincode.go:49-156 | after two sends for different patients and tokens, each patient's query returns only that patient's record |
| PatientIndex.TokenReuse | chaincode/default/doctor/chaincode.go:40-70 | two sends of the same token for different patients both succeed, since nothing checks whether the token is taken. The second record overwrites the first and both index entries stay, so the first patient's query lists the token with the second patient's record. TokenReuseLedger gives the ledger this leaves |
| PatientIndex.OneSend | chaincode/default/doctor/chaincode.go:35-126 | one send on an empty ledger, then a query for its patient, returns the one-element array with the stored record |
| PatientIndex.MissingRecordListed | chaincode/new/pharmacy/chaincode.go:129-146 | an index entry whose record was removed is still listed, with an empty Contract value, and the query succeeds: no integrity error is raised |
| PatientIndex.LonePartialKey | chaincode/new/pharmacy/chaincode.go:124-126 | a ledger holding only the partial key of a patient is not well formed. That patient's query panics on compositeKeyArgs[1], since the key splits into a single attribute |
| PatientIndex.PlantedRecord | chaincode/new/pharmacy/chaincode.go:69-80 | Send with a token that is the partial key of patient "A" writes the record, then fails on the composite key. The record it leaves lies under the index namespace, and a query for "A" then panics |
| CompositeKey.CreateCompositeKey | chaincode/new/pharmacy/chaincode.go:76 | a key is produced if and only if the object type and every attribute avoid U+0000 and U+10FFFF, and it is then the concrete Fabric layout |
| CompositeKey.SplitCompositeKey | chaincode/new/pharmacy/chaincode.go:124 | there is a result exactly when a separator follows the key's first character. The object type and attributes found hold no separator, and each followed by the separator they rebuild the key after its first character up to its last separator: the key is cut at every separator |
| CompositeKey.SplitOfCreate | chaincode/new/pharmacy/chaincode.go:124-126 | splitting a created key gives back its object type and attributes, so compositeKeyArgs[1] of an index key is the token that was sent |
| CompositeKey.KeyInjective | chaincode/new/pharmacy/chaincode.go:76 | different valid attribute lists under one object type give different keys |
| CompositeKey.KeyExtends | chaincode/new/pharmacy/chaincode.go:104 | the key of a longer attribute list extends the key of each of its leading lists |
| CompositeKey.PartialKeyPrefix | chaincode/new/pharmacy/chaincode.go:104 | the partial key of [patient] is a prefix of the key of [first, second] if and only if first is the patient |
| Lexicographic.LessIrreflexive | chaincode/new/pharmacy/chaincode.go:104 | no key sorts before itself |
| Lexicographic.LessTransitive | chaincode/new/pharmacy/chaincode.go:116 | the scan order is transitive |
| Lexicographic.LessTotal | chaincode/new/pharmacy/chaincode.go:117 | any two different keys are ordered one way or the other |
| Lexicographic.PrefixRange | chaincode/new/pharmacy/chaincode.go:104 | [p, p + top) holds exactly the strings that start with p and whose next character, if any, is below top |
| Ledger.Ascending | chaincode/default/doctor/chaincode.go:80 | the scan's enumeration of a key set holds exactly those keys, each once |
| Ledger.AscendingIsSorted | chaincode/default/doctor/chaincode.go:91-92 | the enumeration is strictly ascending in the lexicographic order, so the iterator yields the keys sorted and without repetition |
| Ledger.AscendingOrder | chaincode/default/doctor/chaincode.go:80 | the selection loop that orders the scanned keys returns exactly the ascending enumeration |
| Ledger.StateIterator.Next | chaincode/new/pharmacy/chaincode.go:117-121 | Next returns the next key and advances, or returns the stub's error and stays. It does not touch the closed flag |
| Ledger.StateIterator.Close | chaincode/new/pharmacy/chaincode.go:153 | Close marks the iterator closed and leaves its position |
| Ledger.Stub.PutState | chaincode/new/pharmacy/chaincode.go:69 | an empty key is refused with "key must not be an empty string" and changes nothing. Otherwise a successful write stores the value under the key and changes nothing else, and a failed one changes nothing |
| Ledger.Stub.GetState | chaincode/new/pharmacy/chaincode.go:129 | a read returns the stored value, or empty bytes for a key never written. A failed read returns the stub's error |
| Ledger.Stub.GetStateByPartialCompositeKey | chaincode/new/pharmacy/chaincode.go:104-108 | an invalid attribute or a failed scan gives an error. Otherwise the result is a fresh open iterator over the keys in [partial key, partial key + U+10FFFF), ascending |
| Json.EscapeChar | chaincode/new/pharmacy/chaincode.go:62 | each character is written as at least one character, all of them safe in a JSON string inside an HTML script: no control character, none of <, >, &, U+2028, U+2029 |
| Json.ReadEscapeChar | chaincode/new/pharmacy/chaincode.go:62 | reading the escaped form of one character gives that character back, and reading goes on after it |
| Json.Escape | chaincode/new/pharmacy/chaincode.go:62 | the escaped text is at least as long as the string and holds only script-safe characters |
| Json.Marshal | chaincode/new/pharmacy/chaincode.go:62 | the text is an object in braces. With plain tags it holds no raw control character |
| Json.ParseEscaped | chaincode/new/pharmacy/chaincode.go:62 | the escaped form of any string, then a closing quote, reads back as that string |
| Json.ParsePlain | chaincode/new/pharmacy/chaincode.go:142 | a token with no quote, backslash or control character, written verbatim between quotes, reads back as itself |
| Json.RawControlUnreadable | chaincode/new/pharmacy/chaincode.go:142 | text written verbatim between quotes that holds a control character before any quote or backslash is not a JSON string: reading stops with no result |
| Json.ParseObjectOfMarshal | chaincode/new/pharmacy/chaincode.go:62 | the encoder's object text, followed by anything, reads back as the record's field values, leaving what follows |
| Json.ReadRecordOfMarshal | chaincode/default/doctor/chaincode.go:46 | reading Marshal(values) back with the strict reader gives the values |
| Json.MarshalInjective | chaincode/default/doctor/chaincode.go:46 | different field values never produce the same JSON text |
| Decimal.Itoa | chaincode/default/doctor/chaincode.go:37 | the text of a count is non-empty, all decimal digits, with no leading zero |
| Decimal.ValueOfItoa | chaincode/default/doctor/chaincode.go:75 | the digits of a count denote that count |
| Decimal.ItoaInjective | chaincode/new/pharmacy/chaincode.go:98 | different counts are reported with different texts |
| QueryOutput.ObjectText | chaincode/new/pharmacy/chaincode.go:140-147 | one element is 25 characters longer than its token and record together, and opens with "{" and closes with "}" |
| QueryOutput.JoinCons | chaincode/default/doctor/chaincode.go:108-110 | read from the front, the joined elements are the first element, a comma, then the rest: no leading or trailing comma |
| QueryOutput.ParseElementOf | chaincode/new/pharmacy/chaincode.go:140-147 | one element, written for a plain token and a marshalled record, reads back as that token and record, leaving what follows |
| QueryOutput.ParseArrayOf | chaincode/new/pharmacy/chaincode.go:111-151 | when every token is plain (no quote, backslash or control character) and every record is json.Marshal output, the whole payload reads back as a JSON array of exactly those entries, in order |
| QueryOutput.MissingRecordUnreadable | chaincode/new/pharmacy/chaincode.go:129-146 | the element written for a token with no record, {"Token":"t", "Contract":}, is not JSON: no reading of the payload gets past it |
| QueryOutput.RawTokenUnreadable | chaincode/new/pharmacy/chaincode.go:142 | a token holding a control character before any quote or backslash is written verbatim, so its element is not JSON and no reading of the payload gets past it |
| QueryOutput.EscapedTokenMisread | chaincode/new/pharmacy/chaincode.go:140-147 | a token that spells JSON escapes is written verbatim, so the element reads back with the escapes undone: the token Escape(x) comes back as x, with the record intact |
| QueryOutput.BackslashTokenMisread | chaincode/new/pharmacy/chaincode.go:142 | the two-character token backslash, n reads back as a one-character line feed |
| QueryOutput.QuoteTokenCut | chaincode/new/pharmacy/chaincode.go:142 | a token holding a quote is cut at that quote: if its element reads at all, the token read is the part before the quote |

## Behaviour worth knowing

- **Missing record.** An index entry whose record is gone is still listed. GetState returns empty bytes, the element is written as `"Contract":` followed by nothing, and the query answers success with a payload that is not JSON. See `PatientIndex.MissingRecordListed`, `Doctor.RecordRemoved` and `QueryOutput.MissingRecordUnreadable`.
- **Releasing the iterator.** The pharmacy query closes its iterator only before the successful return; the error returns inside the loop leave it open. The doctor query never closes it.
- **Malformed index keys.** The error of `SplitCompositeKey` is ignored and `compositeKeyArgs[1]` is indexed, so a key with fewer than two attributes makes the chaincode panic (`PatientIndex.LonePartialKey`).
- **Tokens written verbatim.** The token goes into the payload between quotes without JSON escaping. A token with no quote, backslash or control character reads back as itself (`QueryOutput.ParseArrayOf`). For the others:
  - A backslash starts an escape. The token reads back changed (the two characters backslash, n come back as a line feed: `QueryOutput.BackslashTokenMisread`, `QueryOutput.EscapedTokenMisread`), or not at all when what follows is no valid escape.
  - A quote ends the string early (`QueryOutput.QuoteTokenCut`). What follows it is read as JSON: a token such as `a", "x":"y` gives valid JSON with an extra member `"x"` in the element, which the model's strict reader refuses but a general JSON parser accepts.
  - A control character makes the payload invalid JSON (`QueryOutput.RawTokenUnreadable`).
- **Token reuse.** `Send` writes the record under its token without checking whether the token is already taken. A second send with the same token overwrites the first record. Both index entries stay, so the first patient's query lists the token with the second patient's contract (`PatientIndex.TokenReuse`).
- **Empty token.** `Send` with an empty token fails at the record write, because the shim's `PutState` refuses an empty key. Nothing is written.
- **Naming and layout.** The index namespace is "patient~token", and the element is written as `{"Token":"t", "Contract":<record>}`, with a space after the comma.

## Left out

- The Fabric shim and peer protos are not modelled: `ChaincodeStubInterface`, `GetFunctionAndParameters`, `sc.Response`, gRPC and endorsement. The function name and its parameters are arguments of `Invoke`. A stub call's failure is a `Faults` parameter.
- The shim's own error texts are not reproduced. For a composite-key attribute holding a forbidden character, the model uses one fixed message (`InvalidAttributeMessage`). Fabric's message also names the offending character and its position.
- Fabric's check that a composite-key attribute is valid UTF-8 is not modelled: strings are sequences of Unicode code points. Go's `[]byte` and `string` are both `seq<char>`. The scan order is code-point order, which agrees with the byte order of UTF-8.
- `Init` is not modelled: it only answers success.
- Transaction semantics are not modelled: MVCC, endorsement, ordering, and the peer discarding the write set of a transaction that answered an error. The model shows the writes the chaincode itself makes, so a failed `Send` can leave its record write in the state. `PatientIndex.PlantedRecord` depends on this, and whether such a state is ever committed is up to the peer.
- Json.EscapeChar: it writes U+0008 and U+000C as `\u0008` and `\u000c`, as `json.Marshal` does before Go 1.22; Go 1.22 and later write `\b` and `\f`. Go's replacement of invalid UTF-8 by `\ufffd` does not arise, because strings here are sequences of code points.
- Json.ReadRecord: it reads only the layout `json.Marshal` writes: the tags in order, no whitespace, every value a string. Go's `json.Unmarshal` also accepts other member orders, whitespace, unknown members and case-insensitive tags. The reader refuses a `\u` escape of a surrogate, and so a surrogate pair, which `json.Marshal` never writes.
- The `json.Marshal` error branch (chaincode/new/pharmacy/chaincode.go:64-66, chaincode/default/doctor/chaincode.go:48-50) is not modelled, because it cannot fire for a struct of strings.
- Pharmacy.TwoPatients: the expected payload is stated with `Serialize` and `ObjectText` rather than as one literal JSON text, to keep the proof small. `Json.Marshal` fixes that text.
- Ledger.StateIterator.Next: it requires `HasNext()`, which the code always checks just before calling it. What a Fabric iterator does when called past its end is not modelled.
- Iterator resources beyond a closed flag are not modelled: paging and the peer-side query context.
- A Go runtime panic is the response `Panic(reason)`, and its reason strings are the model's own. What the shim does when the chaincode panics is not modelled.
- Fabric's `SplitCompositeKey` is only defined for keys with at least one separator-terminated piece. On other keys it indexes an empty slice and panics, and the model writes that case as a `Panic` response as well. Every key a partial-key scan returns starts with the partial key, so this case does not arise from the query.

=== FILE: composite_key.dfy ===
/** Hyperledger Fabric's composite keys, the encoding the chaincodes use for
    their patient index: a tuple of strings packed into one ledger key as
    U+0000, the object type, U+0000, then every attribute followed by U+0000.
    Object type and attributes must not contain U+0000 or U+10FFFF. */
module CompositeKey {
  import opened Wrappers

  /** The separator, Fabric's minUnicodeRuneValue. */
  const Separator: char := '\0'
  /** Fabric's maxUnicodeRuneValue: it closes the range of a partial-key scan. */
  const MaxRune: char := '\U{10FFFF}'

  const InvalidAttributeMessage: string :=
    "input contains a character that is not allowed in a composite key attribute"

  predicate NoSeparator(s: string) {
    forall i :: 0 <= i < |s| ==> s[i] != Separator
  }

  /** What CreateCompositeKey accepts as an object type or an attribute. */
  predicate ValidAttribute(s: string) {
    forall i :: 0 <= i < |s| ==> s[i] != Separator && s[i] != MaxRune
  }

  predicate AllValid(attrs: seq<string>) {
    forall i :: 0 <= i < |attrs| ==> ValidAttribute(attrs[i])
  }

  lemma AllValidPair(a: string, b: string)
    ensures AllValid([a, b]) <==> ValidAttribute(a) && ValidAttribute(b)
  {
    assert [a, b][0] == a && [a, b][1] == b;
  }

  /** Each part followed by the separator. */
  function Terminated(parts: seq<string>): string {
    if |parts| == 0 then "" else parts[0] + [Separator] + Terminated(parts[1..])
  }

  /** The key of a composite tuple, without the validity check. */
  function Key(objectType: string, attributes: seq<string>): string {
    [Separator] + Terminated([objectType] + attributes)
  }

  /** stub.CreateCompositeKey: the key, or an error when the object type or
      an attribute holds a forbidden character. */
  function CreateCompositeKey(objectType: string, attributes: seq<string>): (r: Result<string, string>)
    ensures r.Ok? <==> ValidAttribute(objectType) && AllValid(attributes)
    ensures r.Ok? ==> r.value == Key(objectType, attributes)
  {
    if ValidAttribute(objectType) && AllValid(attributes) then Ok(Key(objectType, attributes))
    else Err(InvalidAttributeMessage)
  }

  /** Index of the first separator of s, or |s| when there is none. */
  function FirstSeparator(s: string): (i: nat)
    ensures i <= |s|
    ensures forall j :: 0 <= j < i ==> s[j] != Separator
    ensures i < |s| ==> s[i] == Separator
  {
    if |s| == 0 || s[0] == Separator then 0 else 1 + FirstSeparator(s[1..])
  }

  /** The separator-terminated pieces of s, in order; a trailing piece with
      no separator after it is dropped, as Fabric's splitting loop does. */
  function Components(s: string): seq<string>
    decreases |s|
  {
    var i := FirstSeparator(s);
    if i == |s| then [] else [s[..i]] + Components(s[i + 1..])
  }

  /** stub.SplitCompositeKey: the object type and the attributes of a key.
      The scan starts after the key's first character. None stands for a key
      with no separator-terminated piece at all, on which Fabric's shim
      indexes an empty slice and panics. */
  function SplitCompositeKey(key: string): (r: Option<(string, seq<string>)>)
    // there is a piece exactly when a separator follows the first character
    ensures r.None? <==> |key| == 0 || NoSeparator(key[1..])
    // the pieces, each followed by the separator again, rebuild the key after
    // its first character up to its last separator
    ensures r.Some? ==>
              var t := Terminated([r.value.0] + r.value.1);
              |key| > 0 && t <= key[1..] && NoSeparator(key[1..][|t|..])
    // the object type and every attribute are separator-free: the split is
    // the one at every separator
    ensures r.Some? ==>
              NoSeparator(r.value.0) && forall i :: 0 <= i < |r.value.1| ==> NoSeparator(r.value.1[i])
  {
    if |key| == 0 then None
    else
      ComponentsRebuild(key[1..]);
      ComponentsEmpty(key[1..]);
      ComponentsSeparatorFree(key[1..]);
      var parts := Components(key[1..]);
      if |parts| == 0 then None
      else
        assert [parts[0]] + parts[1..] == parts;
        Some((parts[0], parts[1..]))
  }

  /** The pieces of s, each terminated, are the text of s up to its last
      separator. */
  lemma {:induction false} ComponentsRebuild(s: string)
    ensures Terminated(Components(s)) <= s
    ensures NoSeparator(s[|Terminated(Components(s))|..])
    decreases |s|
  {
    var i := FirstSeparator(s);
    if i < |s| {
      var rest := s[i + 1..];
      ComponentsRebuild(rest);
      var t := Terminated(Components(rest));
      TerminatedComponentsStep(s, i);
      assert s == s[..i + 1] + rest;
      RebuildStep(s, s[..i + 1], rest, t, Terminated(Components(s)));
    } else {
      assert s[..] == s;
    }
  }

  /** Each piece of s is separator-free. */
  lemma {:induction false} ComponentsSeparatorFree(s: string)
    ensures forall k :: 0 <= k < |Components(s)| ==> NoSeparator(Components(s)[k])
    decreases |s|
  {
    var i := FirstSeparator(s);
    if i < |s| {
      var rest := Components(s[i + 1..]);
      ComponentsSeparatorFree(s[i + 1..]);
      assert Components(s) == [s[..i]] + rest;
      assert NoSeparator(s[..i]);
      forall k | 0 <= k < |Components(s)|
        ensures NoSeparator(Components(s)[k])
      {
        if k > 0 {
          assert Components(s)[k] == rest[k - 1];
        }
      }
    }
  }

  /** The first piece of s, terminated, then the terminated pieces of the
      text after its separator. */
  lemma {:induction false} TerminatedComponentsStep(s: string, i: nat)
    requires i == FirstSeparator(s) && i < |s|
    ensures Terminated(Components(s)) == s[..i + 1] + Terminated(Components(s[i + 1..]))
  {
    ComponentsUnfold(s, i);
    TerminatedCons(s[..i], Components(s[i + 1..]));
    SeparatorSlice(s, i);
  }

  lemma {:induction false} ComponentsUnfold(s: string, i: nat)
    requires i == FirstSeparator(s) && i < |s|
    ensures Components(s) == [s[..i]] + Components(s[i + 1..])
  {
  }

  lemma {:induction false} TerminatedCons(p: string, parts: seq<string>)
    ensures Terminated([p] + parts) == p + [Separator] + Terminated(parts)
  {
    assert ([p] + parts)[1..] == parts;
  }

  lemma {:induction false} SeparatorSlice(s: string, i: nat)
    requires i < |s| && s[i] == Separator
    ensures s[..i] + [Separator] == s[..i + 1]
  {
  }

  /** A prefix of rest after the same head is a prefix of the whole, and
      leaves what it left of rest. */
  lemma {:induction false} RebuildStep(s: string, head: string, rest: string, t: string, whole: string)
    requires s == head + rest && whole == head + t
    requires t <= rest && NoSeparator(rest[|t|..])
    ensures whole <= s && NoSeparator(s[|whole|..])
  {
    assert s[|whole|..] == rest[|t|..];
  }

  /** s has no separator-terminated piece exactly when it holds no separator. */
  lemma {:induction false} ComponentsEmpty(s: string)
    ensures Components(s) == [] <==> NoSeparator(s)
  {
    var i := FirstSeparator(s);
    if i < |s| {
      assert Components(s) == [s[..i]] + Components(s[i + 1..]);
    }
  }

  lemma {:induction false} ComponentsOfPiece(a: string, rest: string)
    requires NoSeparator(a)
    ensures Components(a + [Separator] + rest) == [a] + Components(rest)
  {
    var s := a + [Separator] + rest;
    assert FirstSeparator(s) == |a| by {
      FirstSeparatorAt(s, |a|);
    }
    assert s[..|a|] == a;
    assert s[|a| + 1..] == rest;
  }

  lemma {:induction false} FirstSeparatorAt(s: string, i: nat)
    requires i < |s| && s[i] == Separator
    requires forall j :: 0 <= j < i ==> s[j] != Separator
    ensures FirstSeparator(s) == i
    decreases i
  {
    if i > 0 {
      FirstSeparatorAt(s[1..], i - 1);
    }
  }

  /** Splitting the separator-terminated parts gives back the parts, and
      whatever follows is split on its own. */
  lemma {:induction false} ComponentsOfTerminated(parts: seq<string>, rest: string)
    requires forall i :: 0 <= i < |parts| ==> NoSeparator(parts[i])
    ensures Components(Terminated(parts) + rest) == parts + Components(rest)
    decreases |parts|
  {
    if |parts| == 0 {
      assert Terminated(parts) + rest == rest;
    } else {
      ComponentsOfTerminated(parts[1..], rest);
      assert Terminated(parts) + rest == parts[0] + [Separator] + (Terminated(parts[1..]) + rest);
      ComponentsOfPiece(parts[0], Terminated(parts[1..]) + rest);
      assert [parts[0]] + parts[1..] == parts;
    }
  }

  lemma {:induction false} TerminatedAppend(a: seq<string>, b: seq<string>)
    ensures Terminated(a + b) == Terminated(a) + Terminated(b)
    decreases |a|
  {
    if |a| == 0 {
      assert a + b == b;
    } else {
      TerminatedAppend(a[1..], b);
      assert (a + b)[1..] == a[1..] + b;
    }
  }

  lemma {:induction false} ComponentsOfNoSeparator(s: string)
    requires NoSeparator(s)
    ensures Components(s) == []
  {
    assert FirstSeparator(s) == |s|;
  }

  /** Round trip: splitting a key that CreateCompositeKey produced gives back
      its object type and attributes. */
  lemma SplitOfCreate(objectType: string, attributes: seq<string>)
    requires CreateCompositeKey(objectType, attributes).Ok?
    ensures SplitCompositeKey(CreateCompositeKey(objectType, attributes).value)
         == Some((objectType, attributes))
  {
    var parts := [objectType] + attributes;
    var key := Key(objectType, attributes);
    assert key[1..] == Terminated(parts);
    ComponentsOfTerminated(parts, "");
    assert Terminated(parts) + "" == Terminated(parts);
    ComponentsOfNoSeparator("");
    assert parts + [] == parts;
  }

  /** Two valid tuples under one object type have the same key only if they
      are the same tuple. */
  lemma KeyInjective(objectType: string, a: seq<string>, b: seq<string>)
    requires CreateCompositeKey(objectType, a).Ok? && CreateCompositeKey(objectType, b).Ok?
    requires Key(objectType, a) == Key(objectType, b)
    ensures a == b
  {
    SplitOfCreate(objectType, a);
    SplitOfCreate(objectType, b);
  }

  /** The key of a tuple extends the key of each of its leading parts. */
  lemma {:induction false} KeyExtends(objectType: string, attributes: seq<string>, more: seq<string>)
    ensures Key(objectType, attributes + more) == Key(objectType, attributes) + Terminated(more)
  {
    var parts := [objectType] + attributes;
    assert [objectType] + (attributes + more) == parts + more;
    assert Terminated(parts + more) == Terminated(parts) + Terminated(more) by {
      TerminatedAppend(parts, more);
    }
    assert [Separator] + (Terminated(parts) + Terminated(more))
        == [Separator] + Terminated(parts) + Terminated(more);
  }

  /** A key of [first, second] that extends the key of [lead] has lead as
      its first attribute. */
  lemma LeadOfExtension(objectType: string, lead: string, first: string, second: string, rest: string)
    requires CreateCompositeKey(objectType, [lead]).Ok?
    requires CreateCompositeKey(objectType, [first, second]).Ok?
    requires Key(objectType, [first, second]) == Key(objectType, [lead]) + rest
    ensures first == lead
  {
    var k := Key(objectType, [first, second]);
    var whole := Terminated([objectType, first, second]);
    assert k[1..] == whole;
    assert k[1..] == Terminated([objectType, lead]) + rest;
    ComponentsOfTerminated([objectType, first, second], "");
    assert whole + "" == whole;
    ComponentsOfNoSeparator("");
    ComponentsOfTerminated([objectType, lead], rest);
    assert Components(k[1..]) == [objectType, first, second];
    assert Components(k[1..]) == [objectType, lead] + Components(rest);
    assert Components(k[1..])[1] == lead;
  }

  /** The partial key of [lead] is a prefix of the key of [first, second]
      exactly when first == lead: the partial-key prefix selects the tuples
      whose leading attribute matches. */
  lemma PartialKeyPrefix(objectType: string, lead: string, first: string, second: string)
    requires CreateCompositeKey(objectType, [lead]).Ok?
    requires CreateCompositeKey(objectType, [first, second]).Ok?
    ensures Key(objectType, [lead]) <= Key(objectType, [first, second]) <==> first == lead
  {
    var p := Key(objectType, [lead]);
    var k := Key(objectType, [first, second]);
    if p <= k {
      LeadOfExtension(objectType, lead, first, second, k[|p|..]);
    }
    if first == lead {
      KeyExtends(objectType, [first], [second]);
      assert [first] + [second] == [first, second];
    }
  }
}

=== FILE: decimal.dfy ===
/** Decimal rendering of counts, as Go's strconv.Itoa produces it for a
    non-negative int (no sign, no leading zeros). */
module Decimal {

  predicate IsDigit(c: char) {
    '0' <= c <= '9'
  }

  function DigitChar(d: nat): (c: char)
    requires d < 10
    ensures IsDigit(c) && c as int - '0' as int == d
  {
    ['0', '1', '2', '3', '4', '5', '6', '7', '8', '9'][d]
  }

  /** strconv.Itoa(n) for n >= 0. */
  function Itoa(n: nat): (s: string)
    ensures |s| > 0
    ensures forall i :: 0 <= i < |s| ==> IsDigit(s[i])
    ensures |s| > 1 ==> s[0] != '0'
    decreases n
  {
    if n < 10 then [DigitChar(n)] else Itoa(n / 10) + [DigitChar(n % 10)]
  }

  /** The number a string of decimal digits denotes. */
  function Value(s: string): nat
    requires forall i :: 0 <= i < |s| ==> IsDigit(s[i])
  {
    if |s| == 0 then 0
    else
      assert IsDigit(s[|s| - 1]);
      Value(s[..|s| - 1]) * 10 + (s[|s| - 1] as int - '0' as int)
  }

  /** Itoa loses nothing: reading the digits back gives the count. */
  lemma {:induction false} ValueOfItoa(n: nat)
    ensures Value(Itoa(n)) == n
    decreases n
  {
    if n >= 10 {
      ValueOfItoa(n / 10);
      var s := Itoa(n);
      assert s[..|s| - 1] == Itoa(n / 10);
    }
  }

  /** Different counts are reported with different texts. */
  lemma ItoaInjective(m: nat, n: nat)
    requires Itoa(m) == Itoa(n)
    ensures m == n
  {
    ValueOfItoa(m);
    ValueOfItoa(n);
  }
}

=== FILE: doctor.dfy ===
/** The doctor chaincode: sale contracts with three fields, sent one by one
    and queried by patient address; its query never closes the iterator. */
module Doctor {
  import opened Wrappers
  import Decimal
  import Json
  import opened CompositeKey
  import opened Ledger
  import opened QueryOutput
  import opened SaleContract
  import PatientIndex

  /** A sale contract; the token is unique for each sale. */
  datatype Contract = Contract(token: string, patientAddress: string, medicationSold: string)

  /** The json tags of Contract, in declaration order. */
  const Fields: seq<string> := ["token", "patientAddress", "medicationSold"]

  const Layout: Shape := Variant(Fields, false)

  function Values(c: Contract): seq<string> {
    [c.token, c.patientAddress, c.medicationSold]
  }

  /** The contract Send builds from its arguments. */
  function ContractOf(args: seq<string>): (c: Contract)
    requires |args| == 3
    ensures Values(c) == args
  {
    Contract(args[0], args[1], args[2])
  }

  /** json.Marshal of a contract; reading it back gives the contract, so
      different contracts have different serializations. */
  function Serialize(c: Contract): (r: string)
    ensures Deserialize(r) == Some(c)
  {
    Json.ReadRecordOfMarshal(Fields, Values(c));
    Json.Marshal(Fields, Values(c))
  }

  /** Reads a contract back from the layout json.Marshal writes for it. */
  function Deserialize(s: string): Option<Contract> {
    match Json.ReadRecord(Fields, s)
    case Some(vs) => if |vs| == 3 then Some(Contract(vs[0], vs[1], vs[2])) else None
    case None => None
  }

  /** The arity message names the expected count 3. */
  lemma ArityMessage(n: nat)
    ensures ArityError(3, n) == "Wrong number of arguments! Expected 3 but got " + Decimal.Itoa(n)
  {
    assert Decimal.Itoa(3) == "3";
    assert ArityPrefix + "3" + " but got " == "Wrong number of arguments! Expected 3 but got ";
  }

  /** Send with other than three arguments reports the count and writes
      nothing. */
  lemma SendArity(state: map<string, string>, args: seq<string>, faults: Faults)
    requires |args| != 3
    ensures SendSpec(Layout, state, args, faults)
         == (Error("Wrong number of arguments! Expected 3 but got " + Decimal.Itoa(|args|)), state)
  {
    assert |Layout.fields| == 3;
    ArityMessage(|args|);
  }

  /** A successful Send stores the contract built from its arguments under
      the token, answers with the same bytes, and marks the index entry
      (patientAddress, token) with the byte 0x00. */
  lemma SendStores(state: map<string, string>, args: seq<string>, faults: Faults)
    requires SendSpec(Layout, state, args, faults).0.Success?
    ensures var (resp, after) := SendSpec(Layout, state, args, faults);
            && |args| == 3
            && after[args[0]] == resp.payload == Serialize(ContractOf(args))
            && Deserialize(after[args[0]]) == Some(ContractOf(args))
            && after[IndexKey(args[1], args[0])] == [0 as char]
  {
    assert Values(ContractOf(args)) == args;
  }

  /** Send, imperatively. */
  method Send(stub: Stub, args: seq<string>, faults: Faults) returns (resp: Response)
    modifies stub
    ensures (resp, stub.state) == SendSpec(Layout, old(stub.state), args, faults)
  {
    resp := SaleContract.Send(Layout, stub, args, faults);
  }

  /** QueryByPatientAddress, imperatively; the iterator it opens is left
      open on every path. */
  method QueryByPatientAddress(stub: Stub, args: seq<string>, faults: Faults) returns (resp: Response, it: StateIterator?)
    ensures resp == QuerySpec(stub.state, args, faults)
    ensures it != null <==> |args| == 1 && ValidAttribute(args[0]) && faults.scan.None?
    ensures it != null ==> fresh(it) && it.keys == PatientScan(stub.state, args[0])
    ensures it != null ==> !it.closed
  {
    resp, it := SaleContract.QueryByPatientAddress(Layout, stub, args, faults);
  }

  /** Invoke. */
  method Invoke(stub: Stub, fcn: string, params: seq<string>, faults: Faults) returns (resp: Response)
    modifies stub
    ensures Route(fcn) == SendOp ==> (resp, stub.state) == SendSpec(Layout, old(stub.state), params, faults)
    ensures Route(fcn) == QueryOp ==>
              resp == QuerySpec(old(stub.state), params, faults) && stub.state == old(stub.state)
    ensures Route(fcn) == Ignored ==> resp == Success("") && stub.state == old(stub.state)
  {
    resp := SaleContract.Invoke(Layout, stub, fcn, params, faults);
  }

  /** One sale on an empty ledger; the query for its patient lists it. */
  lemma OnePatient()
    ensures QuerySpec(SendSpec(Layout, map[], ["tok1", "addrA", "drugX"], NoFaults).1, ["addrA"], NoFaults)
         == Success("[" + ObjectText("tok1", Serialize(Contract("tok1", "addrA", "drugX"))) + "]")
  {
    var a := ["tok1", "addrA", "drugX"];
    assert ValidAttribute(a[0]) && ValidAttribute(a[1]);
    assert Values(Contract("tok1", "addrA", "drugX")) == a;
    PatientIndex.OneSend(Layout, a);
  }

  /** The same sale with its record removed and its index entry kept: the
      query still succeeds and lists the token with an empty Contract. */
  lemma RecordRemoved()
    ensures QuerySpec(SendSpec(Layout, map[], ["tok1", "addrA", "drugX"], NoFaults).1 - {"tok1"}, ["addrA"], NoFaults)
         == Success("[" + ObjectText("tok1", "") + "]")
  {
    var a := ["tok1", "addrA", "drugX"];
    assert ValidAttribute(a[0]) && ValidAttribute(a[1]);
    PatientIndex.MissingRecordListed(Layout, a);
  }
}

=== FILE: json.dfy ===
/** The JSON text Go's encoding/json produces for a record of string fields
    (json.Marshal of a struct whose fields are all strings and carry a json
    tag, with HTML escaping on, as json.Marshal has it), and a reader of
    JSON string literals and of that record layout, which shows that the
    encoding loses nothing. */
module Json {
  import opened Wrappers

  /** Go's lower-case hexadecimal digit for d. */
  function HexDigit(d: nat): (c: char)
    requires d < 16
    ensures HexValue(c) == Some(d)
  {
    if d < 10 then ('0' as int + d) as char else ('a' as int + d - 10) as char
  }

  /** The value of a hexadecimal digit of either case. */
  function HexValue(c: char): (r: Option<nat>)
    ensures r.Some? ==> r.value < 16
  {
    if '0' <= c <= '9' then Some(c as int - '0' as int)
    else if 'a' <= c <= 'f' then Some(c as int - 'a' as int + 10)
    else if 'A' <= c <= 'F' then Some(c as int - 'A' as int + 10)
    else None
  }

  /** The four hexadecimal digits of a \u escape, most significant first. */
  function Hex4(n: nat): (r: string)
    requires n < 0x10000
    ensures |r| == 4
  {
    var q := n / 16;
    var q2 := q / 16;
    [HexDigit(q2 / 16), HexDigit(q2 % 16), HexDigit(q % 16), HexDigit(n % 16)]
  }

  /** The number written by the first four characters of s, when they are
      hexadecimal digits. */
  function Hex4Value(s: string): (r: Option<nat>)
    requires |s| >= 4
    ensures r.Some? ==> r.value < 0x10000
  {
    match (HexValue(s[0]), HexValue(s[1]), HexValue(s[2]), HexValue(s[3]))
    case (Some(a), Some(b), Some(c), Some(d)) => Some(((a * 16 + b) * 16 + c) * 16 + d)
    case _ => None
  }

  lemma Hex4Round(n: nat, rest: string)
    requires n < 0x10000
    ensures Hex4Value(Hex4(n) + rest) == Some(n)
  {
    var s := Hex4(n) + rest;
    assert s[..4] == Hex4(n);
    var q := n / 16;
    var q2 := q / 16;
    assert q2 / 16 * 16 + q2 % 16 == q2;
    assert q2 * 16 + q % 16 == q;
    assert q * 16 + n % 16 == n;
  }

  /** A character the encoder writes as itself: no quote, no backslash, no
      control character and none of the characters HTMLEscape replaces. */
  predicate Unescaped(c: char) {
    ' ' <= c && c != '"' && c != '\\' && c != '<' && c != '>' && c != '&'
    && c != '\U{2028}' && c != '\U{2029}'
  }

  /** A character allowed in a JSON text outside a string's escapes, and safe
      inside an HTML script element: no control character, none of <, >, &,
      U+2028, U+2029. */
  predicate ScriptSafe(c: char) {
    ' ' <= c && c != '<' && c != '>' && c != '&' && c != '\U{2028}' && c != '\U{2029}'
  }

  /** What json.Marshal writes for one character of a string value:
      quote and backslash after a backslash; \n, \r, \t; \u00XX for the other
      control characters and for <, > and &; \u2028 and \u2029 for those
      two characters; every other character as itself. */
  function EscapeChar(c: char): (r: string)
    ensures |r| >= 1
    ensures forall i :: 0 <= i < |r| ==> ScriptSafe(r[i])
  {
    if c == '"' || c == '\\' then ['\\', c]
    else if c == '\n' then "\\n"
    else if c == '\r' then "\\r"
    else if c == '\t' then "\\t"
    else if !Unescaped(c) then "\\u" + Hex4(c as int)
    else [c]
  }

  /** The body of the JSON string literal json.Marshal writes for s. */
  function Escape(s: string): (r: string)
    ensures |r| >= |s|
    ensures forall i :: 0 <= i < |r| ==> ScriptSafe(r[i])
  {
    if |s| == 0 then "" else EscapeChar(s[0]) + Escape(s[1..])
  }

  /** A string that can stand between quotes in JSON as it is: no quote, no
      backslash, no control character. */
  predicate Plain(s: string) {
    forall i :: 0 <= i < |s| ==> s[i] != '"' && s[i] != '\\' && ' ' <= s[i]
  }

  /** s with the prefix p removed, or None when s does not start with p. */
  function StripPrefix(p: string, s: string): (r: Option<string>)
    ensures r.Some? <==> p <= s
    ensures r.Some? ==> s == p + r.value
  {
    if p <= s then Some(s[|p|..]) else None
  }

  lemma StripPrefixOfConcat(p: string, s: string)
    ensures StripPrefix(p, p + s) == Some(s)
  {
    assert (p + s)[..|p|] == p;
    assert (p + s)[|p|..] == s;
  }

  /** Reads the escape sequence after a backslash in a JSON string: the
      character it stands for and the text after it. A \u escape of a lone
      surrogate is refused. */
  function ParseEscape(s: string): (r: Option<(char, string)>)
    ensures r.Some? ==> |r.value.1| < |s|
  {
    if |s| == 0 then None
    else if s[0] == '"' || s[0] == '\\' || s[0] == '/' then Some((s[0], s[1..]))
    else if s[0] == 'b' then Some((8 as char, s[1..]))
    else if s[0] == 'f' then Some((12 as char, s[1..]))
    else if s[0] == 'n' then Some(('\n', s[1..]))
    else if s[0] == 'r' then Some(('\r', s[1..]))
    else if s[0] == 't' then Some(('\t', s[1..]))
    else if s[0] == 'u' && |s| >= 5 then
      match Hex4Value(s[1..5])
      case None => None
      case Some(v) => if 0xD800 <= v < 0xE000 then None else Some((v as char, s[5..]))
    else None
  }

  /** c in front of the value read, if any. */
  function Prefixed(c: char, r: Option<(string, string)>): Option<(string, string)> {
    match r
    case None => None
    case Some((v, rest)) => Some(([c] + v, rest))
  }

  /** Reads the body of a JSON string literal up to its closing quote: the
      decoded value and the text after the quote. A raw control character
      is refused, as JSON requires. */
  function ParseStringBody(s: string): (r: Option<(string, string)>)
    ensures r.Some? ==> |r.value.1| < |s|
    decreases |s|
  {
    if |s| == 0 then None
    else if s[0] == '"' then Some(("", s[1..]))
    else if s[0] < ' ' then None
    else if s[0] == '\\' then
      match ParseEscape(s[1..])
      case None => None
      case Some((c, s1)) => Prefixed(c, ParseStringBody(s1))
    else Prefixed(s[0], ParseStringBody(s[1..]))
  }

  /** Reading one escaped character gives the character back. */
  lemma ReadEscapeChar(c: char, tail: string)
    ensures ParseStringBody(EscapeChar(c) + tail) == Prefixed(c, ParseStringBody(tail))
  {
    if c == '"' || c == '\\' || c == '\n' || c == '\r' || c == '\t' {
      ReadShortEscape(c, tail);
    } else if !Unescaped(c) {
      ReadUnicodeEscape(c, tail);
    } else {
      assert (EscapeChar(c) + tail)[1..] == tail;
    }
  }

  lemma ReadShortEscape(c: char, tail: string)
    requires c == '"' || c == '\\' || c == '\n' || c == '\r' || c == '\t'
    ensures ParseStringBody(EscapeChar(c) + tail) == Prefixed(c, ParseStringBody(tail))
  {
    var s := EscapeChar(c) + tail;
    assert s[1..][1..] == tail;
  }

  lemma ReadUnicodeEscape(c: char, tail: string)
    requires !Unescaped(c) && c != '"' && c != '\\' && c != '\n' && c != '\r' && c != '\t'
    ensures ParseStringBody(EscapeChar(c) + tail) == Prefixed(c, ParseStringBody(tail))
  {
    var s := EscapeChar(c) + tail;
    var h := Hex4(c as int);
    assert s[1..] == "u" + (h + tail);
    assert s[1..][1..5] == h + "" && s[1..][5..] == tail;
    Hex4Round(c as int, "");
  }

  /** Escaping is undone by reading: the escaped value followed by a quote
      reads back as the value, leaving what follows the quote. */
  lemma {:induction false} ParseEscaped(x: string, rest: string)
    ensures ParseStringBody(Escape(x) + "\"" + rest) == Some((x, rest))
  {
    if |x| == 0 {
      assert Escape(x) + "\"" + rest == ['"'] + rest;
    } else {
      var tail := Escape(x[1..]) + "\"" + rest;
      assert Escape(x) + "\"" + rest == EscapeChar(x[0]) + tail;
      ReadEscapeChar(x[0], tail);
      ParseEscaped(x[1..], rest);
      assert [x[0]] + x[1..] == x;
    }
  }

  /** A plain string written between quotes as it is reads back as itself. */
  lemma {:induction false} ParsePlain(x: string, rest: string)
    requires Plain(x)
    ensures ParseStringBody(x + ("\"" + rest)) == Some((x, rest))
  {
    if |x| == 0 {
      assert x + ("\"" + rest) == "\"" + rest;
      assert ("\"" + rest)[1..] == rest;
    } else {
      ParsePlain(x[1..], rest);
      assert (x + ("\"" + rest))[1..] == x[1..] + ("\"" + rest);
      assert [x[0]] + x[1..] == x;
    }
  }

  /** Text written raw between quotes that holds a control character before
      any quote or backslash is not a JSON string: reading stops there. */
  lemma {:induction false} RawControlUnreadable(x: string, j: nat, rest: string)
    requires j < |x| && x[j] < ' ' && Plain(x[..j])
    ensures ParseStringBody(x + rest) == None
    decreases j
  {
    if j > 0 {
      assert x[1..][..j - 1] == x[..j][1..];
      RawControlUnreadable(x[1..], j - 1, rest);
      assert (x + rest)[1..] == x[1..] + rest;
      assert x[..j][0] == x[0];
    }
  }

  /** The members of an object in field order, each "name":"value" with the
      value escaped, separated by commas. */
  function Members(names: seq<string>, values: seq<string>, first: bool): (r: string)
    requires |names| == |values|
    ensures (forall k :: 0 <= k < |names| ==> Plain(names[k])) ==> forall i :: 0 <= i < |r| ==> ' ' <= r[i]
  {
    if |names| == 0 then ""
    else ((if first then "" else ",") + "\"" + names[0] + "\":\"")
         + (Escape(values[0]) + "\"" + Members(names[1..], values[1..], false))
  }

  /** json.Marshal of a record whose i-th field is tagged names[i] and holds
      values[i]: the fields appear in declaration order, with no spaces. */
  function Marshal(names: seq<string>, values: seq<string>): (r: string)
    requires |names| == |values|
    ensures |r| >= 2 && r[0] == '{' && r[|r| - 1] == '}'
    // with plain tags, the text holds no raw control character
    ensures (forall k :: 0 <= k < |names| ==> Plain(names[k])) ==> forall i :: 0 <= i < |r| ==> ' ' <= r[i]
  {
    "{" + Members(names, values, true) + "}"
  }

  /** Reads the members named names, in that order. */
  function ParseMembers(names: seq<string>, s: string, first: bool): (r: Option<(seq<string>, string)>)
    ensures r.Some? ==> |r.value.1| <= |s|
    decreases |names|
  {
    if |names| == 0 then Some(([], s))
    else match StripPrefix((if first then "" else ",") + "\"" + names[0] + "\":\"", s)
      case None => None
      case Some(s1) =>
        match ParseStringBody(s1)
        case None => None
        case Some((v, s2)) =>
          match ParseMembers(names[1..], s2, false)
          case None => None
          case Some((vs, s3)) => Some(([v] + vs, s3))
  }

  /** Reads an object with the members names, in that order, from the front
      of s: the values and the text after the closing brace. */
  function ParseObject(names: seq<string>, s: string): (r: Option<(seq<string>, string)>)
    ensures r.Some? ==> |r.value.1| < |s|
  {
    match StripPrefix("{", s)
    case None => None
    case Some(s1) =>
      match ParseMembers(names, s1, true)
      case None => None
      case Some((vs, s2)) =>
        match StripPrefix("}", s2)
        case None => None
        case Some(s3) => Some((vs, s3))
  }

  /** Reads a whole text written in the layout Marshal produces: the members
      in declaration order, no white space. It is stricter than Go's
      json.Unmarshal, which accepts any JSON object. */
  function ReadRecord(names: seq<string>, s: string): Option<seq<string>> {
    match ParseObject(names, s)
    case Some((vs, rest)) => if rest == "" then Some(vs) else None
    case None => None
  }

  lemma {:induction false} ParseMembersOf(names: seq<string>, values: seq<string>, first: bool, rest: string)
    requires |names| == |values|
    ensures ParseMembers(names, Members(names, values, first) + rest, first) == Some((values, rest))
    decreases |names|
  {
    if |names| == 0 {
      assert Members(names, values, first) + rest == rest;
    } else {
      var head := (if first then "" else ",") + "\"" + names[0] + "\":\"";
      var after := Members(names[1..], values[1..], false) + rest;
      assert Members(names, values, first) + rest == head + (Escape(values[0]) + "\"" + after);
      StripPrefixOfConcat(head, Escape(values[0]) + "\"" + after);
      ParseEscaped(values[0], after);
      ParseMembersOf(names[1..], values[1..], false, rest);
      assert [values[0]] + values[1..] == values;
    }
  }

  /** The encoder's output followed by anything reads back as the record. */
  lemma ParseObjectOfMarshal(names: seq<string>, values: seq<string>, rest: string)
    requires |names| == |values|
    ensures ParseObject(names, Marshal(names, values) + rest) == Some((values, rest))
  {
    var body := Members(names, values, true);
    assert Marshal(names, values) + rest == "{" + (body + ("}" + rest));
    StripPrefixOfConcat("{", body + ("}" + rest));
    ParseMembersOf(names, values, true, "}" + rest);
    StripPrefixOfConcat("}", rest);
  }

  /** Round trip: reading back what Marshal writes gives the values. */
  lemma ReadRecordOfMarshal(names: seq<string>, values: seq<string>)
    requires |names| == |values|
    ensures ReadRecord(names, Marshal(names, values)) == Some(values)
  {
    ParseObjectOfMarshal(names, values, "");
    assert Marshal(names, values) + "" == Marshal(names, values);
  }

  /** Two records with the same JSON text are the same record. */
  lemma MarshalInjective(names: seq<string>, a: seq<string>, b: seq<string>)
    requires |names| == |a| == |b|
    requires Marshal(names, a) == Marshal(names, b)
    ensures a == b
  {
    ReadRecordOfMarshal(names, a);
    ReadRecordOfMarshal(names, b);
  }
}

=== FILE: ledger.dfy ===
/** The chaincode's view of the ledger: the world state as a map from keys to
    values held by the stub, point reads and writes, and the range scan behind
    GetStateByPartialCompositeKey. A stub call that can fail takes its failure
    as a parameter (None: the call succeeds; Some(e): it returns error e). */
module Ledger {
  import opened Wrappers
  import opened Lexicographic
  import CompositeKey

  /** GetState of a key: the stored value, or empty bytes (nil) when the key
      was never written. */
  function Lookup(state: map<string, string>, key: string): (v: string)
    ensures key in state ==> v == state[key]
    ensures key !in state ==> v == ""
  {
    if key in state then state[key] else ""
  }

  /** The shim's answer to PutState with an empty key. */
  const EmptyKeyMessage: string := "key must not be an empty string"

  /** The error stub.PutState reports for key, given the peer's failure. */
  function PutError(key: string, fault: Option<string>): Option<string> {
    if key == "" then Some(EmptyKeyMessage) else fault
  }

  /** k lies in the half-open range [start, end) the state database scans. */
  predicate InScanRange(k: string, start: string, end: string) {
    LessEq(start, k) && Less(k, end)
  }

  ghost predicate StrictlyAscending(s: seq<string>) {
    forall i, j :: 0 <= i < j < |s| ==> Less(s[i], s[j])
  }

  ghost predicate IsLeast(m: string, keys: set<string>) {
    m in keys && forall y :: y in keys ==> LessEq(m, y)
  }

  lemma {:induction false} LeastExists(keys: set<string>)
    requires keys != {}
    ensures exists m :: IsLeast(m, keys)
    decreases keys
  {
    var x :| x in keys;
    var others := keys - {x};
    if others == {} {
      assert keys == {x};
      assert IsLeast(x, keys);
    } else {
      LeastExists(others);
      var m :| IsLeast(m, others);
      LessTotal(m, x);
      if Less(x, m) {
        forall y | y in keys ensures LessEq(x, y) {
          if y != x {
            LessEqTransitive(x, m, y);
          }
        }
        assert IsLeast(x, keys);
      } else {
        assert IsLeast(m, keys);
      }
    }
  }

  lemma LeastUnique(m: string, n: string, keys: set<string>)
    requires IsLeast(m, keys) && IsLeast(n, keys)
    ensures m == n
  {
    if m != n {
      LessAsymmetric(m, n);
    }
  }

  /** The keys of a finite set in ascending order: the order in which the
      state database returns the keys of a range. */
  ghost function Ascending(keys: set<string>): (r: seq<string>)
    ensures forall k :: k in r <==> k in keys
    ensures |r| == |keys|
    decreases keys
  {
    if keys == {} then []
    else
      LeastExists(keys);
      var m :| IsLeast(m, keys);
      [m] + Ascending(keys - {m})
  }

  lemma AscendingUnfold(keys: set<string>, m: string)
    requires IsLeast(m, keys)
    ensures Ascending(keys) == [m] + Ascending(keys - {m})
  {
    forall n | IsLeast(n, keys) ensures n == m {
      LeastUnique(n, m, keys);
    }
  }

  /** The enumeration has no repetitions and is sorted. */
  lemma {:induction false} AscendingIsSorted(keys: set<string>)
    ensures StrictlyAscending(Ascending(keys))
    decreases keys
  {
    if keys != {} {
      LeastExists(keys);
      var m :| IsLeast(m, keys);
      AscendingUnfold(keys, m);
      AscendingIsSorted(keys - {m});
      LeastThenSorted(m, keys, Ascending(keys - {m}));
    }
  }

  /** The least key in front of a sorted sequence of the other keys keeps
      it sorted. */
  lemma LeastThenSorted(m: string, keys: set<string>, tail: seq<string>)
    requires IsLeast(m, keys) && StrictlyAscending(tail)
    requires forall k :: k in tail ==> k in keys && k != m
    ensures StrictlyAscending([m] + tail)
  {
    var r := [m] + tail;
    forall i, j | 0 <= i < j < |r| ensures Less(r[i], r[j]) {
      if i > 0 {
        assert r[i] == tail[i - 1] && r[j] == tail[j - 1];
      } else {
        assert r[j] in tail;
      }
    }
  }

  /** The keys of state inside [start, end), in the order the scan returns
      them. */
  ghost function ScanOrder(state: map<string, string>, start: string, end: string): seq<string> {
    Ascending(set k | k in state && InScanRange(k, start, end))
  }

  lemma RegroupLeast(r: seq<string>, m: string, tail: seq<string>)
    ensures r + ([m] + tail) == (r + [m]) + tail
  {
  }

  /** Picks the least key of a non-empty set. */
  method Least(keys: set<string>) returns (m: string)
    requires keys != {}
    ensures IsLeast(m, keys)
  {
    m :| m in keys;
    var todo := keys - {m};
    while todo != {}
      invariant todo <= keys && m in keys && m !in todo
      invariant forall y :: y in keys && y !in todo ==> LessEq(m, y)
      decreases todo
    {
      var y :| y in todo;
      LessTotal(y, m);
      if Less(y, m) {
        forall z | z in keys && z !in todo ensures LessEq(y, z) {
          LessEqTransitive(y, m, z);
        }
        m := y;
      }
      todo := todo - {y};
    }
  }

  /** Lists a finite set of keys in ascending order by repeatedly taking the
      least remaining key. */
  method AscendingOrder(keys: set<string>) returns (r: seq<string>)
    ensures r == Ascending(keys)
  {
    r := [];
    var rest := keys;
    while rest != {}
      invariant r + Ascending(rest) == Ascending(keys)
      decreases rest
    {
      var m := Least(rest);
      assert m in rest;
      assert (r + [m]) + Ascending(rest - {m}) == Ascending(keys) by {
        AscendingUnfold(rest, m);
        RegroupLeast(r, m, Ascending(rest - {m}));
      }
      r, rest := r + [m], rest - {m};
    }
  }

  /** An open iterator over the keys a scan returned. */
  class StateIterator {
    const keys: seq<string>
    var pos: nat
    var closed: bool

    constructor (keys: seq<string>)
      ensures this.keys == keys && pos == 0 && !closed
    {
      this.keys := keys;
      pos := 0;
      closed := false;
    }

    predicate HasNext()
      reads this
    {
      pos < |keys|
    }

    /** The next key, or the error the stub reports. */
    method Next(fault: Option<string>) returns (r: Result<string, string>)
      requires HasNext()
      modifies this
      ensures closed == old(closed)
      ensures fault.Some? ==> r == Err(fault.value) && pos == old(pos)
      ensures fault.None? ==> r == Ok(keys[old(pos)]) && pos == old(pos) + 1
    {
      if fault.Some? {
        r := Err(fault.value);
      } else {
        r := Ok(keys[pos]);
        pos := pos + 1;
      }
    }

    method Close()
      modifies this
      ensures closed && pos == old(pos)
    {
      closed := true;
    }
  }

  /** The chaincode stub, reduced to the world state it reads and writes. */
  class Stub {
    var state: map<string, string>

    constructor (initial: map<string, string>)
      ensures state == initial
    {
      state := initial;
    }

    /** stub.PutState: stores value under key unless the call fails. The shim
        refuses an empty key itself, whatever the peer would answer. */
    method PutState(key: string, value: string, fault: Option<string>) returns (err: Option<string>)
      modifies this
      ensures key == "" ==> err == Some(EmptyKeyMessage)
      ensures key != "" ==> err == fault
      ensures state == if err.None? then old(state)[key := value] else old(state)
    {
      err := PutError(key, fault);
      if err.None? {
        state := state[key := value];
      }
    }

    /** stub.GetState: the value under key (empty when absent) unless the
        call fails. */
    method GetState(key: string, fault: Option<string>) returns (r: Result<string, string>)
      ensures fault.Some? ==> r == Err(fault.value)
      ensures fault.None? ==> r == Ok(Lookup(state, key))
    {
      if fault.Some? {
        r := Err(fault.value);
      } else {
        r := Ok(Lookup(state, key));
      }
    }

    /** stub.GetStateByPartialCompositeKey: the partial key of objectType and
        attributes is built first (its error is returned as is); the keys in
        [partial key, partial key + U+10FFFF) are then returned in ascending
        order unless the scan fails. */
    method GetStateByPartialCompositeKey(objectType: string, attributes: seq<string>, fault: Option<string>)
      returns (r: Result<StateIterator, string>)
      ensures CompositeKey.CreateCompositeKey(objectType, attributes).Err? ==>
                r == Err(CompositeKey.CreateCompositeKey(objectType, attributes).error)
      ensures CompositeKey.CreateCompositeKey(objectType, attributes).Ok? && fault.Some? ==>
                r == Err(fault.value)
      ensures CompositeKey.CreateCompositeKey(objectType, attributes).Ok? && fault.None? ==>
                var start := CompositeKey.Key(objectType, attributes);
                && r.Ok? && fresh(r.value) && !r.value.closed && r.value.pos == 0
                && r.value.keys == ScanOrder(state, start, start + [CompositeKey.MaxRune])
    {
      var partial := CompositeKey.CreateCompositeKey(objectType, attributes);
      if partial.Err? {
        return Err(partial.error);
      }
      if fault.Some? {
        return Err(fault.value);
      }
      var start := partial.value;
      var end := start + [CompositeKey.MaxRune];
      var inRange := set k | k in state && InScanRange(k, start, end);
      var ordered := AscendingOrder(inRange);
      var it := new StateIterator(ordered);
      r := Ok(it);
    }
  }
}

=== FILE: lex.dfy ===
/** The order in which the ledger keeps its keys: lexicographic over the
    characters of a key (for UTF-8 keys, the same as the byte order the
    state database sorts by). */
module Lexicographic {

  /** a sorts strictly before b. */
  predicate Less(a: string, b: string)
    decreases |a|
  {
    |b| > 0 && (|a| == 0 || a[0] < b[0] || (a[0] == b[0] && Less(a[1..], b[1..])))
  }

  predicate LessEq(a: string, b: string) {
    a == b || Less(a, b)
  }

  lemma {:induction false} LessIrreflexive(a: string)
    ensures !Less(a, a)
    decreases |a|
  {
    if |a| > 0 {
      LessIrreflexive(a[1..]);
    }
  }

  lemma {:induction false} LessTransitive(a: string, b: string, c: string)
    requires Less(a, b) && Less(b, c)
    ensures Less(a, c)
    decreases |a|
  {
    if |a| > 0 && a[0] == b[0] && b[0] == c[0] {
      LessTransitive(a[1..], b[1..], c[1..]);
    }
  }

  lemma {:induction false} LessTotal(a: string, b: string)
    ensures a == b || Less(a, b) || Less(b, a)
    decreases |a|
  {
    if |a| > 0 && |b| > 0 && a[0] == b[0] {
      LessTotal(a[1..], b[1..]);
      if a[1..] == b[1..] {
        assert a == [a[0]] + a[1..] && b == [b[0]] + b[1..];
      }
    }
  }

  lemma LessAsymmetric(a: string, b: string)
    requires Less(a, b)
    ensures !Less(b, a)
  {
    if Less(b, a) {
      LessTransitive(a, b, a);
      LessIrreflexive(a);
    }
  }

  lemma LessEqTransitive(a: string, b: string, c: string)
    requires LessEq(a, b) && LessEq(b, c)
    ensures LessEq(a, c)
  {
    if Less(a, b) && Less(b, c) {
      LessTransitive(a, b, c);
    }
  }

  /** The range [p, p + [top]) holds exactly the strings that start with p
      and whose next character, if any, sorts below top. */
  lemma {:induction false} PrefixRange(p: string, top: char, k: string)
    ensures (LessEq(p, k) && Less(k, p + [top]))
        <==> (p <= k && (|k| == |p| || k[|p|] < top))
    decreases |p|
  {
    if |p| == 0 {
      assert p + [top] == [top];
    } else if |k| > 0 {
      PrefixRange(p[1..], top, k[1..]);
      assert (p + [top])[1..] == p[1..] + [top];
      if k[0] == p[0] {
        assert p <= k <==> p[1..] <= k[1..];
      }
    }
  }
}

=== FILE: patient_index.dfy ===
/** What the "patient~token" index guarantees: every key under the index's
    namespace is an index entry written by Send, a committed Send keeps it
    so, and on such a ledger a query without stub failures returns exactly
    the tokens indexed under the patient, in the order of their index keys. */
module PatientIndex {
  import opened Wrappers
  import Json
  import opened Lexicographic
  import opened CompositeKey
  import opened Ledger
  import opened QueryOutput
  import opened SaleContract

  /** The key of the bare namespace: every index key starts with it. */
  function IndexPrefix(): string {
    Key(IndexName, [])
  }

  /** k is the key of a (patient, token) pair with both parts valid. */
  predicate IsIndexEntry(k: string) {
    match SplitCompositeKey(k)
    case None => false
    case Some((ns, attrs)) => ns == IndexName && |attrs| == 2 && AllValid(attrs) && k == Key(IndexName, attrs)
  }

  /** The token an index key names: its second attribute. */
  function TokenOf(k: string): string {
    match SplitCompositeKey(k)
    case None => ""
    case Some((_, attrs)) => if |attrs| >= 2 then attrs[1] else ""
  }

  /** Every key of the ledger under the index namespace is an index entry. */
  ghost predicate IndexWellFormed(state: map<string, string>) {
    forall k :: k in state && IndexPrefix() <= k ==> IsIndexEntry(k)
  }

  lemma IndexNameValid()
    ensures ValidAttribute(IndexName)
  {
    assert IndexName == "patient~token";
  }

  /** The key Send writes for a pair of valid attributes is an index entry,
      under the namespace, naming the token. */
  lemma IndexKeyIsEntry(patient: string, token: string)
    requires ValidAttribute(patient) && ValidAttribute(token)
    ensures IsIndexEntry(IndexKey(patient, token))
    ensures IndexPrefix() <= IndexKey(patient, token)
    ensures TokenOf(IndexKey(patient, token)) == token
  {
    IndexNameValid();
    AllValidPair(patient, token);
    SplitOfCreate(IndexName, [patient, token]);
    KeyExtends(IndexName, [], [patient, token]);
    assert [] + [patient, token] == [patient, token];
  }

  /** A valid token never lies under the index namespace: the namespace
      key starts with the separator. */
  lemma ValidOutsideIndex(t: string)
    requires ValidAttribute(t)
    ensures !(IndexPrefix() <= t)
  {
    assert |IndexPrefix()| > 0 && IndexPrefix()[0] == Separator;
    assert |t| == 0 || t[0] != Separator;
  }

  /** Send keeps the index well formed, whichever of its writes happen,
      provided its token does not itself lie under the index namespace. */
  lemma SendKeepsIndex(v: Shape, state: map<string, string>, args: seq<string>, faults: Faults)
    requires IndexWellFormed(state)
    requires |args| == |v.fields| ==> !(IndexPrefix() <= args[0])
    ensures IndexWellFormed(SendSpec(v, state, args, faults).1)
  {
    var r := SendSpec(v, state, args, faults);
    if |args| == |v.fields| {
      var key := IndexKey(args[1], args[0]);
      if r.0.Success? {
        IndexKeyIsEntry(args[1], args[0]);
      }
      forall k | k in r.1 && IndexPrefix() <= k
        ensures IsIndexEntry(k)
      {
        if !(r.0.Success? && k == key) {
          assert k in state;
        }
      }
    }
  }

  /** The partial key the query scans from. */
  function PatientKey(patient: string): string {
    Key(IndexName, [patient])
  }

  /** Every character sorts at or below U+10FFFF. */
  lemma BelowMaxRune(c: char)
    requires c != MaxRune
    ensures c < MaxRune
  {
  }

  /** The index key of a valid token for the patient lies in the scanned
      range. */
  lemma EntryInRange(patient: string, token: string)
    requires ValidAttribute(token)
    ensures InScanRange(IndexKey(patient, token), PatientKey(patient), PatientKey(patient) + [MaxRune])
  {
    var p := PatientKey(patient);
    var k := IndexKey(patient, token);
    KeyExtends(IndexName, [patient], [token]);
    assert [patient] + [token] == [patient, token];
    assert Terminated([token]) == token + [Separator];
    assert k == p + (token + [Separator]);
    if |token| > 0 {
      BelowMaxRune(token[0]);
      assert k[|p|] == token[0];
    } else {
      assert k[|p|] == Separator;
    }
    PrefixRange(p, MaxRune, k);
  }

  /** On a well formed ledger, a key in the scanned range is the index key
      of a valid token for the patient. */
  lemma InRangeIsEntry(state: map<string, string>, patient: string, k: string)
    requires IndexWellFormed(state) && ValidAttribute(patient)
    requires k in state && InScanRange(k, PatientKey(patient), PatientKey(patient) + [MaxRune])
    ensures IsIndexEntry(k) && ValidAttribute(TokenOf(k)) && k == IndexKey(patient, TokenOf(k))
  {
    InRangeUnderIndex(patient, k);
    assert IsIndexEntry(k);
    EntryOfPatient(patient, k);
  }

  /** A key in the scanned range extends the patient's partial key, and so
      lies under the index namespace. */
  lemma InRangeUnderIndex(patient: string, k: string)
    requires InScanRange(k, PatientKey(patient), PatientKey(patient) + [MaxRune])
    ensures PatientKey(patient) <= k && IndexPrefix() <= k
  {
    PrefixRange(PatientKey(patient), MaxRune, k);
    KeyExtends(IndexName, [], [patient]);
    assert [] + [patient] == [patient];
  }

  /** An index entry that extends the patient's partial key names the
      patient as its first attribute. */
  lemma EntryOfPatient(patient: string, k: string)
    requires IsIndexEntry(k) && ValidAttribute(patient) && PatientKey(patient) <= k
    ensures ValidAttribute(TokenOf(k)) && k == IndexKey(patient, TokenOf(k))
  {
    var attrs := SplitCompositeKey(k).value.1;
    assert attrs == [attrs[0], attrs[1]];
    IndexNameValid();
    AllValidPair(attrs[0], attrs[1]);
    PartialKeyPrefix(IndexName, patient, attrs[0], attrs[1]);
  }

  /** The keys the query visits are exactly the patient's index entries. */
  lemma ScanIsPatientEntries(state: map<string, string>, patient: string)
    requires IndexWellFormed(state) && ValidAttribute(patient)
    ensures forall k :: k in PatientScan(state, patient) ==>
              k in state && IsIndexEntry(k) && ValidAttribute(TokenOf(k)) && k == IndexKey(patient, TokenOf(k))
    ensures forall t :: ValidAttribute(t) && IndexKey(patient, t) in state ==>
              IndexKey(patient, t) in PatientScan(state, patient)
  {
    var p := PatientKey(patient);
    forall k | k in PatientScan(state, patient)
      ensures k in state && IsIndexEntry(k) && ValidAttribute(TokenOf(k)) && k == IndexKey(patient, TokenOf(k))
    {
      InRangeIsEntry(state, patient, k);
    }
    forall t | ValidAttribute(t) && IndexKey(patient, t) in state
      ensures IndexKey(patient, t) in PatientScan(state, patient)
    {
      EntryInRange(patient, t);
    }
  }

  /** The tokens of the keys from i on, in order. */
  function TokensOfKeys(keys: seq<string>, i: nat): seq<string>
    requires i <= |keys|
  {
    seq(|keys| - i, j requires 0 <= j < |keys| - i => TokenOf(keys[i + j]))
  }

  /** The scan visits the index keys of the listed tokens, one by one. */
  lemma ScanTokens(state: map<string, string>, patient: string)
    requires IndexWellFormed(state) && ValidAttribute(patient)
    ensures var keys := PatientScan(state, patient);
            forall i :: 0 <= i < |keys| ==>
              ValidAttribute(TokensOfKeys(keys, 0)[i]) && IndexKey(patient, TokensOfKeys(keys, 0)[i]) == keys[i]
  {
    ScanIsPatientEntries(state, patient);
  }

  /** Every valid token indexed under the patient is listed. */
  lemma ScanListsAll(state: map<string, string>, patient: string, t: string)
    requires IndexWellFormed(state) && ValidAttribute(patient)
    requires ValidAttribute(t) && IndexKey(patient, t) in state
    ensures t in TokensOfKeys(PatientScan(state, patient), 0)
  {
    var keys := PatientScan(state, patient);
    ScanIsPatientEntries(state, patient);
    var i :| 0 <= i < |keys| && keys[i] == IndexKey(patient, t);
    IndexKeyIsEntry(patient, t);
    assert TokensOfKeys(keys, 0)[i] == t;
  }

  /** The tokens a query for the patient lists, in the order of the scan. */
  ghost function IndexedTokens(state: map<string, string>, patient: string): (ts: seq<string>)
    requires IndexWellFormed(state) && ValidAttribute(patient)
    ensures forall t :: t in ts <==> ValidAttribute(t) && IndexKey(patient, t) in state
    ensures forall i, j :: 0 <= i < j < |ts| ==> Less(IndexKey(patient, ts[i]), IndexKey(patient, ts[j]))
  {
    var keys := PatientScan(state, patient);
    ScanTokens(state, patient);
    ScanIsPatientEntries(state, patient);
    var p := PatientKey(patient);
    AscendingIsSorted(set k | k in state && InScanRange(k, p, p + [MaxRune]));
    forall t | ValidAttribute(t) && IndexKey(patient, t) in state
      ensures t in TokensOfKeys(keys, 0)
    {
      ScanListsAll(state, patient, t);
    }
    TokensOfKeys(keys, 0)
  }

  lemma TokensFromEmit(keys: seq<string>, faults: Faults, i: nat, t: string)
    requires i < |keys| && StepAt(keys, faults, i) == Emit(t)
    ensures TokensFrom(keys, faults, i) == Prepend([t], TokensFrom(keys, faults, i + 1))
  {
  }

  lemma TokensOfKeysCons(keys: seq<string>, i: nat)
    requires i < |keys|
    ensures TokensOfKeys(keys, i) == [TokenOf(keys[i])] + TokensOfKeys(keys, i + 1)
  {
    assert TokensOfKeys(keys, i)[1..] == TokensOfKeys(keys, i + 1);
  }

  /** Without faults, an iteration over an index entry emits its token. */
  lemma EntryEmits(keys: seq<string>, i: nat)
    requires i < |keys| && IsIndexEntry(keys[i])
    ensures StepAt(keys, NoFaults, i) == Emit(TokenOf(keys[i]))
  {
  }

  /** Without faults, a loop over index entries emits every token and stops
      on none. */
  lemma {:induction false} TokensOfEntries(keys: seq<string>, i: nat)
    requires i <= |keys|
    requires forall k :: k in keys ==> IsIndexEntry(k)
    ensures TokensFrom(keys, NoFaults, i) == Ok(TokensOfKeys(keys, i))
    decreases |keys| - i
  {
    if i < |keys| {
      TokensOfEntries(keys, i + 1);
      assert StepAt(keys, NoFaults, i) == Emit(TokenOf(keys[i])) by {
        assert keys[i] in keys;
        EntryEmits(keys, i);
      }
      TokensFromEmit(keys, NoFaults, i, TokenOf(keys[i]));
      TokensOfKeysCons(keys, i);
    } else {
      assert TokensOfKeys(keys, i) == [];
    }
  }

  /** On a well formed ledger, a query for a valid patient address without
      stub failures lists, in order, the patient's tokens with their
      records. */
  lemma QueryListsIndex(state: map<string, string>, patient: string)
    requires IndexWellFormed(state) && ValidAttribute(patient)
    ensures QuerySpec(state, [patient], NoFaults)
         == Success(ArrayText(Objects(state, IndexedTokens(state, patient))))
  {
    var keys := PatientScan(state, patient);
    ScanIsPatientEntries(state, patient);
    TokensOfEntries(keys, 0);
    IndexNameValid();
    assert AllValid([patient]);
    assert TokensOfKeys(keys, 0) == IndexedTokens(state, patient);
  }

  /** A query without stub failures returns the empty array exactly when
      no valid token is indexed under the patient. */
  lemma QueryEmptyIff(state: map<string, string>, patient: string)
    requires IndexWellFormed(state) && ValidAttribute(patient)
    ensures QuerySpec(state, [patient], NoFaults) == Success("[]")
        <==> forall t :: ValidAttribute(t) ==> IndexKey(patient, t) !in state
  {
    QueryListsIndex(state, patient);
    var ts := IndexedTokens(state, patient);
    var objs := Objects(state, ts);
    assert ts != [] ==> ts[0] in ts;
    assert ts == [] ==> objs == [];
    assert objs != [] ==> Join(objs) != "" by {
      if |objs| > 1 {
        assert |Join(objs)| >= |objs[|objs| - 1]| > 0;
      } else if |objs| == 1 {
        assert |objs[0]| > 0;
      }
    }
    assert ArrayText(objs) == "[]" ==> Join(objs) == "" by {
      assert ArrayText(objs)[1..|ArrayText(objs)| - 1] == Join(objs);
    }
  }

  /** After a successful Send, a query for its patient address lists the
      token with the record just written. */
  lemma SendThenQuery(v: Shape, state: map<string, string>, args: seq<string>, faults: Faults)
    requires IndexWellFormed(state)
    requires SendSpec(v, state, args, faults).0.Success?
    ensures var after := SendSpec(v, state, args, faults).1;
            && IndexWellFormed(after)
            && QuerySpec(after, [args[1]], NoFaults) == Success(ArrayText(Objects(after, IndexedTokens(after, args[1]))))
            && args[0] in IndexedTokens(after, args[1])
            && Lookup(after, args[0]) == Json.Marshal(v.fields, args)
  {
    var after := SendSpec(v, state, args, faults).1;
    ValidOutsideIndex(args[0]);
    SendKeepsIndex(v, state, args, faults);
    QueryListsIndex(after, args[1]);
  }

  /** Index keys of valid pairs are equal only for equal pairs, and differ
      from every key that does not start with the separator. */
  lemma IndexKeyMatch(p: string, t: string, q: string, u: string)
    requires ValidAttribute(p) && ValidAttribute(t) && ValidAttribute(q) && ValidAttribute(u)
    ensures IndexKey(p, t) == IndexKey(q, u) <==> p == q && t == u
    ensures IndexKey(p, t)[0] == Separator
  {
    IndexNameValid();
    AllValidPair(p, t);
    AllValidPair(q, u);
    if IndexKey(p, t) == IndexKey(q, u) {
      KeyInjective(IndexName, [p, t], [q, u]);
      assert [p, t][0] == [q, u][0] && [p, t][1] == [q, u][1];
    }
  }

  /** A patient with a single indexed token gets a one-element array. */
  lemma QueryOfOneEntry(state: map<string, string>, patient: string, t: string)
    requires IndexWellFormed(state) && ValidAttribute(patient) && ValidAttribute(t)
    requires IndexKey(patient, t) in state
    requires forall u :: ValidAttribute(u) && IndexKey(patient, u) in state ==> u == t
    ensures QuerySpec(state, [patient], NoFaults) == Success("[" + ObjectText(t, Lookup(state, t)) + "]")
  {
    QueryListsIndex(state, patient);
    var ts := IndexedTokens(state, patient);
    assert t in ts;
    assert ts[0] in ts;
    assert |ts| >= 2 ==> ts[1] in ts && Less(IndexKey(patient, ts[0]), IndexKey(patient, ts[1]));
    LessIrreflexive(IndexKey(patient, t));
    assert ts == [t];
  }

  /** In a ledger holding two records and their index entries for two
      different patients, each patient's only indexed token is its own. */
  lemma SoleToken(s: map<string, string>, p: string, t: string, q: string, u: string)
    requires ValidAttribute(p) && ValidAttribute(t) && ValidAttribute(q) && ValidAttribute(u)
    requires p != q
    requires forall k :: k in s ==> k == t || k == IndexKey(p, t) || k == u || k == IndexKey(q, u)
    ensures forall w :: ValidAttribute(w) && IndexKey(p, w) in s ==> w == t
  {
    assert |t| == 0 || t[0] != Separator;
    assert |u| == 0 || u[0] != Separator;
    forall w | ValidAttribute(w) && IndexKey(p, w) in s
      ensures w == t
    {
      IndexKeyMatch(p, w, p, t);
      IndexKeyMatch(p, w, q, u);
    }
  }

  /** A send of a non-empty token and valid attributes with no stub failure
      succeeds and writes
      the record and the index entry. */
  lemma SendValid(v: Shape, state: map<string, string>, a: seq<string>)
    requires |a| == |v.fields| && a[0] != "" && ValidAttribute(a[0]) && ValidAttribute(a[1])
    ensures SendSpec(v, state, a, NoFaults)
         == (Success(Json.Marshal(v.fields, a)),
             state[a[0] := Json.Marshal(v.fields, a)][IndexKey(a[1], a[0]) := IndexMarker])
  {
  }

  /** The ledger after two successful sends on an empty ledger. */
  lemma TwoSendsLedger(v: Shape, a: seq<string>, b: seq<string>)
    requires |a| == |b| == |v.fields|
    requires a[0] != "" && b[0] != ""
    requires ValidAttribute(a[0]) && ValidAttribute(a[1]) && ValidAttribute(b[0]) && ValidAttribute(b[1])
    ensures var s := SendSpec(v, SendSpec(v, map[], a, NoFaults).1, b, NoFaults).1;
            && IndexWellFormed(s)
            && s == map[a[0] := Json.Marshal(v.fields, a)][IndexKey(a[1], a[0]) := IndexMarker]
                       [b[0] := Json.Marshal(v.fields, b)][IndexKey(b[1], b[0]) := IndexMarker]
  {
    var empty: map<string, string> := map[];
    var s1 := SendSpec(v, empty, a, NoFaults).1;
    ValidOutsideIndex(a[0]);
    ValidOutsideIndex(b[0]);
    SendKeepsIndex(v, empty, a, NoFaults);
    SendKeepsIndex(v, s1, b, NoFaults);
    SendValid(v, empty, a);
    SendValid(v, s1, b);
  }

  /** The keys and records of a ledger holding two records and their index
      entries. */
  lemma TwoRecords(s: map<string, string>, p: string, t: string, q: string, u: string, x: string, y: string)
    requires ValidAttribute(p) && ValidAttribute(t) && ValidAttribute(q) && ValidAttribute(u)
    requires t != u && p != q
    requires s == map[t := x][IndexKey(p, t) := IndexMarker][u := y][IndexKey(q, u) := IndexMarker]
    ensures IndexKey(p, t) in s && IndexKey(q, u) in s
    ensures Lookup(s, t) == x && Lookup(s, u) == y
    ensures forall k :: k in s ==> k == t || k == IndexKey(p, t) || k == u || k == IndexKey(q, u)
  {
    IndexKeyMatch(p, t, q, u);
    assert |t| == 0 || t[0] != Separator;
    assert |u| == 0 || u[0] != Separator;
  }

  /** Two sends for different patients and tokens on an empty ledger: each
      patient's query returns only that patient's record. */
  lemma TwoSends(v: Shape, a: seq<string>, b: seq<string>)
    requires |a| == |b| == |v.fields|
    requires a[0] != "" && b[0] != ""
    requires ValidAttribute(a[0]) && ValidAttribute(a[1]) && ValidAttribute(b[0]) && ValidAttribute(b[1])
    requires a[0] != b[0] && a[1] != b[1]
    ensures var s := SendSpec(v, SendSpec(v, map[], a, NoFaults).1, b, NoFaults).1;
            && QuerySpec(s, [a[1]], NoFaults) == Success("[" + ObjectText(a[0], Json.Marshal(v.fields, a)) + "]")
            && QuerySpec(s, [b[1]], NoFaults) == Success("[" + ObjectText(b[0], Json.Marshal(v.fields, b)) + "]")
  {
    var s := SendSpec(v, SendSpec(v, map[], a, NoFaults).1, b, NoFaults).1;
    TwoSendsLedger(v, a, b);
    TwoRecords(s, a[1], a[0], b[1], b[0], Json.Marshal(v.fields, a), Json.Marshal(v.fields, b));
    SoleToken(s, a[1], a[0], b[1], b[0]);
    QueryOfOneEntry(s, a[1], a[0]);
    SoleToken(s, b[1], b[0], a[1], a[0]);
    QueryOfOneEntry(s, b[1], b[0]);
  }

  /** The ledger after two sends of the same token for different patients
      on an empty ledger: both succeed, the token holds the second record,
      and both index entries are there. */
  lemma {:induction false} TokenReuseLedger(v: Shape, a: seq<string>, b: seq<string>)
    requires |a| == |b| == |v.fields|
    requires a[0] != "" && ValidAttribute(a[0]) && ValidAttribute(a[1]) && ValidAttribute(b[1])
    requires b[0] == a[0] && a[1] != b[1]
    ensures var s1 := SendSpec(v, map[], a, NoFaults).1;
            var s := SendSpec(v, s1, b, NoFaults).1;
            && SendSpec(v, map[], a, NoFaults).0.Success? && SendSpec(v, s1, b, NoFaults).0.Success?
            && IndexWellFormed(s)
            && Lookup(s, a[0]) == Json.Marshal(v.fields, b)
            && IndexKey(a[1], a[0]) in s && IndexKey(b[1], a[0]) in s
            && forall k :: k in s ==> k == a[0] || k == IndexKey(a[1], a[0]) || k == IndexKey(b[1], a[0])
  {
    var t := a[0];
    var s1 := SendSpec(v, map[], a, NoFaults).1;
    TwoSendsLedger(v, a, b);
    SendValid(v, map[], a);
    SendValid(v, s1, b);
    IndexKeyMatch(a[1], t, b[1], t);
    assert t[0] != Separator;
  }

  /** Two sends of the same token for different patients on an empty
      ledger: both succeed, the second record overwrites the first, and both
      index entries stay, so each patient's query lists the token with the
      second patient's record. */
  lemma {:induction false} TokenReuse(v: Shape, a: seq<string>, b: seq<string>)
    requires |a| == |b| == |v.fields|
    requires a[0] != "" && ValidAttribute(a[0]) && ValidAttribute(a[1]) && ValidAttribute(b[1])
    requires b[0] == a[0] && a[1] != b[1]
    ensures var s1 := SendSpec(v, map[], a, NoFaults).1;
            var s := SendSpec(v, s1, b, NoFaults).1;
            && SendSpec(v, map[], a, NoFaults).0.Success? && SendSpec(v, s1, b, NoFaults).0.Success?
            && IndexWellFormed(s)
            && QuerySpec(s, [a[1]], NoFaults) == Success("[" + ObjectText(a[0], Json.Marshal(v.fields, b)) + "]")
            && QuerySpec(s, [b[1]], NoFaults) == Success("[" + ObjectText(a[0], Json.Marshal(v.fields, b)) + "]")
  {
    var t := a[0];
    var s := SendSpec(v, SendSpec(v, map[], a, NoFaults).1, b, NoFaults).1;
    TokenReuseLedger(v, a, b);
    SoleToken(s, a[1], t, b[1], t);
    QueryOfOneEntry(s, a[1], t);
    SoleToken(s, b[1], t, a[1], t);
    QueryOfOneEntry(s, b[1], t);
  }

  /** One send on an empty ledger, then the ledger with that record removed
      but its index entry kept. */
  lemma OneSendLedger(v: Shape, a: seq<string>)
    requires |a| == |v.fields| && a[0] != "" && ValidAttribute(a[0]) && ValidAttribute(a[1])
    ensures var s := SendSpec(v, map[], a, NoFaults).1;
            && IndexWellFormed(s) && IndexWellFormed(s - {a[0]})
            && IndexKey(a[1], a[0]) in s - {a[0]}
            && Lookup(s, a[0]) == Json.Marshal(v.fields, a) && Lookup(s - {a[0]}, a[0]) == ""
            && (forall w :: ValidAttribute(w) && IndexKey(a[1], w) in s ==> w == a[0])
  {
    var empty: map<string, string> := map[];
    var s := SendSpec(v, empty, a, NoFaults).1;
    var ka := IndexKey(a[1], a[0]);
    assert s == map[a[0] := Json.Marshal(v.fields, a)][ka := IndexMarker];
    ValidOutsideIndex(a[0]);
    SendKeepsIndex(v, empty, a, NoFaults);
    IndexKeyMatch(a[1], a[0], a[1], a[0]);
    assert |a[0]| == 0 || a[0][0] != Separator;
    forall w | ValidAttribute(w) && IndexKey(a[1], w) in s
      ensures w == a[0]
    {
      IndexKeyMatch(a[1], w, a[1], a[0]);
    }
  }

  /** One send on an empty ledger: the query for its patient returns its
      record. */
  lemma OneSend(v: Shape, a: seq<string>)
    requires |a| == |v.fields| && a[0] != "" && ValidAttribute(a[0]) && ValidAttribute(a[1])
    ensures QuerySpec(SendSpec(v, map[], a, NoFaults).1, [a[1]], NoFaults)
         == Success("[" + ObjectText(a[0], Json.Marshal(v.fields, a)) + "]")
  {
    OneSendLedger(v, a);
    QueryOfOneEntry(SendSpec(v, map[], a, NoFaults).1, a[1], a[0]);
  }

  /** An index entry whose record is gone is still listed, with an empty
      Contract value, and the query succeeds: no integrity error. */
  lemma MissingRecordListed(v: Shape, a: seq<string>)
    requires |a| == |v.fields| && a[0] != "" && ValidAttribute(a[0]) && ValidAttribute(a[1])
    ensures QuerySpec(SendSpec(v, map[], a, NoFaults).1 - {a[0]}, [a[1]], NoFaults)
         == Success("[" + ObjectText(a[0], "") + "]")
  {
    var s := SendSpec(v, map[], a, NoFaults).1;
    OneSendLedger(v, a);
    QueryOfOneEntry(s - {a[0]}, a[1], a[0]);
  }

  /** The partial key of a patient, alone in the ledger, is the only key
      its query visits; split, it has one attribute, and the query panics on
      compositeKeyArgs[1]. */
  lemma LonePartialKey(s: map<string, string>, patient: string)
    requires ValidAttribute(patient)
    requires s.Keys == {PatientKey(patient)}
    ensures !IndexWellFormed(s)
    ensures QuerySpec(s, [patient], NoFaults) == Panic("index out of range")
  {
    var k := PatientKey(patient);
    IndexNameValid();
    assert AllValid([patient]);
    SplitOfCreate(IndexName, [patient]);
    assert SplitCompositeKey(k) == Some((IndexName, [patient]));
    assert !IsIndexEntry(k);
    KeyExtends(IndexName, [], [patient]);
    assert [] + [patient] == [patient];
    assert IndexPrefix() <= k;
    PrefixRange(k, MaxRune, k);
    assert (set key | key in s && InScanRange(key, k, k + [MaxRune])) == {k};
    assert IsLeast(k, {k});
    AscendingUnfold({k}, k);
    assert {k} - {k} == {};
    assert PatientScan(s, patient) == [k];
    assert StepAt([k], NoFaults, 0) == Halt(Panic("index out of range"));
  }

  /** A token holding the separator: Send writes its record, then fails to
      build the index key. When the token is the partial key of patient "A",
      the record now sits under the index namespace and a query for "A"
      panics. */
  lemma PlantedRecord(v: Shape, a: seq<string>)
    requires |a| == |v.fields| && a[0] == PatientKey("A")
    ensures var (r, s) := SendSpec(v, map[], a, NoFaults);
            && r == Error(IndexError + InvalidAttributeMessage)
            && s == map[a[0] := Json.Marshal(v.fields, a)]
            && !IndexWellFormed(s)
            && QuerySpec(s, ["A"], NoFaults) == Panic("index out of range")
  {
    var k := a[0];
    var s := map[k := Json.Marshal(v.fields, a)];
    assert |k| > 0 && k[0] == Separator;
    assert !ValidAttribute(k);
    AllValidPair(a[1], a[0]);
    assert SendSpec(v, map[], a, NoFaults) == (Error(IndexError + InvalidAttributeMessage), s);
    assert ValidAttribute("A");
    LonePartialKey(s, "A");
  }
}

=== FILE: pharmacy.dfy ===
/** The pharmacy chaincode: sale contracts with four fields, sent one by one
    and queried by patient address; its query closes the iterator. */
module Pharmacy {
  import opened Wrappers
  import Decimal
  import Json
  import opened CompositeKey
  import opened Ledger
  import opened QueryOutput
  import opened SaleContract
  import PatientIndex

  /** A sale contract; the token is unique for each sale. */
  datatype Contract = Contract(token: string, patientAddress: string, pharmacyAddress: string, medicationSold: string)

  /** The json tags of Contract, in declaration order. */
  const Fields: seq<string> := ["token", "patientAddress", "pharmacyAddress", "medicationSold"]

  const Layout: Shape := Variant(Fields, true)

  function Values(c: Contract): seq<string> {
    [c.token, c.patientAddress, c.pharmacyAddress, c.medicationSold]
  }

  /** The contract Send builds from its arguments. */
  function ContractOf(args: seq<string>): (c: Contract)
    requires |args| == 4
    ensures Values(c) == args
  {
    Contract(args[0], args[1], args[2], args[3])
  }

  /** json.Marshal of a contract; reading it back gives the contract, so
      different contracts have different serializations. */
  function Serialize(c: Contract): (r: string)
    ensures Deserialize(r) == Some(c)
  {
    Json.ReadRecordOfMarshal(Fields, Values(c));
    Json.Marshal(Fields, Values(c))
  }

  /** Reads a contract back from the layout json.Marshal writes for it. */
  function Deserialize(s: string): Option<Contract> {
    match Json.ReadRecord(Fields, s)
    case Some(vs) => if |vs| == 4 then Some(Contract(vs[0], vs[1], vs[2], vs[3])) else None
    case None => None
  }

  /** Send with other than four arguments reports the count and writes
      nothing. */
  lemma SendArity(state: map<string, string>, args: seq<string>, faults: Faults)
    requires |args| != 4
    ensures SendSpec(Layout, state, args, faults)
         == (Error("Wrong number of arguments! Expected 4 but got " + Decimal.Itoa(|args|)), state)
  {
    assert |Layout.fields| == 4;
    ArityMessage(|args|);
  }

  /** The arity message names the expected count 4. */
  lemma ArityMessage(n: nat)
    ensures ArityError(4, n) == "Wrong number of arguments! Expected 4 but got " + Decimal.Itoa(n)
  {
    assert Decimal.Itoa(4) == "4";
    assert ArityPrefix + "4" + " but got " == "Wrong number of arguments! Expected 4 but got ";
  }

  /** A successful Send stores the contract built from its arguments under
      the token, answers with the same bytes, and marks the index entry
      (patientAddress, token) with the byte 0x00. */
  lemma SendStores(state: map<string, string>, args: seq<string>, faults: Faults)
    requires SendSpec(Layout, state, args, faults).0.Success?
    ensures var (resp, after) := SendSpec(Layout, state, args, faults);
            && |args| == 4
            && after[args[0]] == resp.payload == Serialize(ContractOf(args))
            && Deserialize(after[args[0]]) == Some(ContractOf(args))
            && after[IndexKey(args[1], args[0])] == [0 as char]
  {
    assert Values(ContractOf(args)) == args;
  }

  /** Send, imperatively. */
  method Send(stub: Stub, args: seq<string>, faults: Faults) returns (resp: Response)
    modifies stub
    ensures (resp, stub.state) == SendSpec(Layout, old(stub.state), args, faults)
  {
    resp := SaleContract.Send(Layout, stub, args, faults);
  }

  /** QueryByPatientAddress, imperatively; a successful query leaves its
      iterator closed. */
  method QueryByPatientAddress(stub: Stub, args: seq<string>, faults: Faults) returns (resp: Response, it: StateIterator?)
    ensures resp == QuerySpec(stub.state, args, faults)
    ensures it != null <==> |args| == 1 && ValidAttribute(args[0]) && faults.scan.None?
    ensures it != null ==> fresh(it) && it.keys == PatientScan(stub.state, args[0])
    ensures it != null ==> (it.closed <==> resp.Success?)
  {
    resp, it := SaleContract.QueryByPatientAddress(Layout, stub, args, faults);
  }

  /** Invoke. */
  method Invoke(stub: Stub, fcn: string, params: seq<string>, faults: Faults) returns (resp: Response)
    modifies stub
    ensures Route(fcn) == SendOp ==> (resp, stub.state) == SendSpec(Layout, old(stub.state), params, faults)
    ensures Route(fcn) == QueryOp ==>
              resp == QuerySpec(old(stub.state), params, faults) && stub.state == old(stub.state)
    ensures Route(fcn) == Ignored ==> resp == Success("") && stub.state == old(stub.state)
  {
    resp := SaleContract.Invoke(Layout, stub, fcn, params, faults);
  }

  /** Two sales to two patients on an empty ledger; each patient's query
      lists only that patient's sale. */
  lemma TwoPatients()
    ensures var s := SendSpec(Layout, SendSpec(Layout, map[], ["tok2", "addrA", "pharmX", "drugY"], NoFaults).1,
                              ["tok3", "addrB", "pharmX", "drugZ"], NoFaults).1;
            && QuerySpec(s, ["addrA"], NoFaults)
               == Success("[" + ObjectText("tok2", Serialize(Contract("tok2", "addrA", "pharmX", "drugY"))) + "]")
            && QuerySpec(s, ["addrB"], NoFaults)
               == Success("[" + ObjectText("tok3", Serialize(Contract("tok3", "addrB", "pharmX", "drugZ"))) + "]")
  {
    var a := ["tok2", "addrA", "pharmX", "drugY"];
    var b := ["tok3", "addrB", "pharmX", "drugZ"];
    assert ValidAttribute(a[0]) && ValidAttribute(a[1]) && ValidAttribute(b[0]) && ValidAttribute(b[1]);
    assert Values(Contract("tok2", "addrA", "pharmX", "drugY")) == a;
    assert Values(Contract("tok3", "addrB", "pharmX", "drugZ")) == b;
    PatientIndex.TwoSends(Layout, a, b);
  }
}

=== FILE: query_output.dfy ===
/** The text QueryByPatientAddress assembles in its buffer: a JSON array with
    one {"Token":..., "Contract":...} object per index entry, and a reader for
    that text showing when the array is well formed. */
module QueryOutput {
  import opened Wrappers
  import Json

  /** One element: the token written verbatim between quotes (it is not
      escaped) and the stored record bytes written as they are. */
  function ObjectText(token: string, contract: string): (r: string)
    ensures |r| == |token| + |contract| + 25
    ensures r[0] == '{' && r[|r| - 1] == '}'
  {
    "{\"Token\":\"" + token + "\", \"Contract\":" + contract + "}"
  }

  /** The items separated by commas, none before the first one. */
  function Join(items: seq<string>): string
    decreases |items|
  {
    if |items| == 0 then ""
    else if |items| == 1 then items[0]
    else Join(items[..|items| - 1]) + "," + items[|items| - 1]
  }

  function ArrayText(items: seq<string>): string {
    "[" + Join(items) + "]"
  }

  /** Appending one item adds a comma exactly when items were already there. */
  lemma JoinSnoc(items: seq<string>, x: string)
    ensures Join(items + [x]) == if |items| == 0 then x else Join(items) + "," + x
  {
    assert (items + [x])[..|items|] == items;
  }

  /** Read from the front, the joined text is the first item, then a comma
      and the rest. */
  lemma {:induction false} JoinCons(items: seq<string>)
    requires |items| >= 2
    ensures Join(items) == items[0] + "," + Join(items[1..])
    decreases |items|
  {
    var n := |items|;
    if n > 2 {
      JoinCons(items[..n - 1]);
      assert items[..n - 1][1..] == items[1..][..n - 2];
      assert items[..n - 1][0] == items[0];
    } else {
      assert items[1..] == [items[1]];
    }
  }

  /** A decoded element: the token and the record's field values. */
  type Entry = (string, seq<string>)

  /** Reads one element from the front of s. */
  function ParseElement(fields: seq<string>, s: string): (r: Option<(Entry, string)>)
    ensures r.Some? ==> |r.value.1| < |s|
  {
    match Json.StripPrefix("{\"Token\":\"", s)
    case None => None
    case Some(s1) =>
      match Json.ParseStringBody(s1)
      case None => None
      case Some((token, s2)) =>
        match Json.StripPrefix(", \"Contract\":", s2)
        case None => None
        case Some(s3) =>
          match Json.ParseObject(fields, s3)
          case None => None
          case Some((values, s4)) =>
            match Json.StripPrefix("}", s4)
            case None => None
            case Some(s5) => Some(((token, values), s5))
  }

  /** Reads elements separated by commas up to the closing bracket, which
      must end the text. */
  function ParseElements(fields: seq<string>, s: string): Option<seq<Entry>>
    decreases |s|
  {
    match ParseElement(fields, s)
    case None => None
    case Some((e, rest)) =>
      if rest == "]" then Some([e])
      else match Json.StripPrefix(",", rest)
        case None => None
        case Some(more) =>
          match ParseElements(fields, more)
          case None => None
          case Some(es) => Some([e] + es)
  }

  /** Reads a whole response payload as a JSON array of elements. */
  function ParseArray(fields: seq<string>, s: string): Option<seq<Entry>> {
    match Json.StripPrefix("[", s)
    case None => None
    case Some(body) => if body == "]" then Some([]) else ParseElements(fields, body)
  }

  /** The element text for a token and a record that json.Marshal wrote. */
  function EntryText(fields: seq<string>, e: Entry): string
    requires |e.1| == |fields|
  {
    ObjectText(e.0, Json.Marshal(fields, e.1))
  }

  predicate Printable(fields: seq<string>, entries: seq<Entry>) {
    forall i :: 0 <= i < |entries| ==>
      |entries[i].1| == |fields| && Json.Plain(entries[i].0)
  }

  function EntryTexts(fields: seq<string>, entries: seq<Entry>): (r: seq<string>)
    requires Printable(fields, entries)
    ensures |r| == |entries|
  {
    seq(|entries|, i requires 0 <= i < |entries| => EntryText(fields, entries[i]))
  }

  /** The element text followed by more text, grouped the way ParseElement
      reads it. */
  lemma ObjectTextThen(token: string, contract: string, rest: string)
    ensures ObjectText(token, contract) + rest
         == "{\"Token\":\"" + (token + ("\"" + (", \"Contract\":" + (contract + ("}" + rest)))))
  {
    assert "\", \"Contract\":" == "\"" + ", \"Contract\":";
  }

  /** ParseElement succeeds when each of its five steps does. */
  lemma ParseElementSteps(fields: seq<string>, s: string, s1: string, token: string, s2: string,
                          s3: string, values: seq<string>, s4: string, s5: string)
    requires Json.StripPrefix("{\"Token\":\"", s) == Some(s1)
    requires Json.ParseStringBody(s1) == Some((token, s2))
    requires Json.StripPrefix(", \"Contract\":", s2) == Some(s3)
    requires Json.ParseObject(fields, s3) == Some((values, s4))
    requires Json.StripPrefix("}", s4) == Some(s5)
    ensures ParseElement(fields, s) == Some(((token, values), s5))
  {
  }

  lemma ParseElementOf(fields: seq<string>, e: Entry, rest: string)
    requires |e.1| == |fields| && Json.Plain(e.0)
    ensures ParseElement(fields, EntryText(fields, e) + rest) == Some((e, rest))
  {
    var record := Json.Marshal(fields, e.1);
    var afterRecord := "}" + rest;
    var afterToken := ", \"Contract\":" + (record + afterRecord);
    ObjectTextThen(e.0, record, rest);
    Json.StripPrefixOfConcat("{\"Token\":\"", e.0 + ("\"" + afterToken));
    Json.ParsePlain(e.0, afterToken);
    Json.StripPrefixOfConcat(", \"Contract\":", record + afterRecord);
    Json.ParseObjectOfMarshal(fields, e.1, afterRecord);
    Json.StripPrefixOfConcat("}", rest);
    ParseElementSteps(fields, EntryText(fields, e) + rest, e.0 + ("\"" + afterToken), e.0, afterToken,
                      record + afterRecord, e.1, afterRecord, rest);
  }

  lemma ParseLastElement(fields: seq<string>, e: Entry)
    requires |e.1| == |fields| && Json.Plain(e.0)
    ensures ParseElements(fields, EntryText(fields, e) + "]") == Some([e])
  {
    ParseElementOf(fields, e, "]");
  }

  /** One step of the element loop: an element followed by a comma and
      the rest of the list. */
  lemma ParseElementsStep(fields: seq<string>, s: string, e: Entry, more: string, es: seq<Entry>)
    requires ParseElement(fields, s) == Some((e, "," + more))
    requires ParseElements(fields, more) == Some(es)
    ensures ParseElements(fields, s) == Some([e] + es)
  {
    assert Json.StripPrefix(",", "," + more) == Some(more) by {
      Json.StripPrefixOfConcat(",", more);
    }
    assert "," + more != "]" by {
      assert ("," + more)[0] == ',';
    }
  }

  lemma ParseNextElement(fields: seq<string>, e: Entry, more: string, es: seq<Entry>)
    requires |e.1| == |fields| && Json.Plain(e.0)
    requires ParseElements(fields, more) == Some(es)
    ensures ParseElements(fields, EntryText(fields, e) + ("," + more)) == Some([e] + es)
  {
    ParseElementOf(fields, e, "," + more);
    ParseElementsStep(fields, EntryText(fields, e) + ("," + more), e, more, es);
  }

  lemma TextsOfTail(fields: seq<string>, entries: seq<Entry>)
    requires |entries| >= 1 && Printable(fields, entries)
    ensures Printable(fields, entries[1..])
    ensures EntryTexts(fields, entries[1..]) == EntryTexts(fields, entries)[1..]
    ensures EntryTexts(fields, entries)[0] == EntryText(fields, entries[0])
  {
  }

  lemma JoinEntryTexts(fields: seq<string>, entries: seq<Entry>)
    requires |entries| >= 2 && Printable(fields, entries)
    ensures Printable(fields, entries[1..])
    ensures Join(EntryTexts(fields, entries)) + "]"
         == EntryText(fields, entries[0]) + ("," + (Join(EntryTexts(fields, entries[1..])) + "]"))
  {
    var texts := EntryTexts(fields, entries);
    TextsOfTail(fields, entries);
    JoinCons(texts);
    Regroup(texts[0], Join(texts[1..]));
  }

  lemma Regroup(x: string, y: string)
    ensures x + "," + y + "]" == x + ("," + (y + "]"))
  {
  }

  lemma {:induction false} ParseElementsOf(fields: seq<string>, entries: seq<Entry>)
    requires |entries| >= 1 && Printable(fields, entries)
    ensures ParseElements(fields, Join(EntryTexts(fields, entries)) + "]") == Some(entries)
    decreases |entries|
  {
    if |entries| == 1 {
      ParseLastElement(fields, entries[0]);
      assert entries == [entries[0]];
    } else {
      var tail := entries[1..];
      assert [entries[0]] + tail == entries;
      TextsOfTail(fields, entries);
      var more := Join(EntryTexts(fields, tail)) + "]";
      assert ParseElements(fields, more) == Some(tail) by {
        ParseElementsOf(fields, tail);
      }
      assert Join(EntryTexts(fields, entries)) + "]" == EntryText(fields, entries[0]) + ("," + more) by {
        JoinEntryTexts(fields, entries);
      }
      ParseNextElement(fields, entries[0], more, tail);
    }
  }

  /** Well-formedness of the query output: when every token needs no escaping
      and every record is json.Marshal output, the payload reads back as a
      JSON array holding exactly those entries, in order. */
  lemma ParseArrayOf(fields: seq<string>, entries: seq<Entry>)
    requires Printable(fields, entries)
    ensures ParseArray(fields, ArrayText(EntryTexts(fields, entries))) == Some(entries)
  {
    var body := Join(EntryTexts(fields, entries)) + "]";
    assert ArrayText(EntryTexts(fields, entries)) == "[" + body;
    Json.StripPrefixOfConcat("[", body);
    if |entries| > 0 {
      ParseElementsOf(fields, entries);
    }
  }

  /** A token that was never stored yields empty record bytes, and the
      element written for it, {"Token":"t", "Contract":}, is not JSON: no
      reading of the payload gets past it. */
  lemma MissingRecordUnreadable(fields: seq<string>, token: string, rest: string)
    requires Json.Plain(token)
    ensures ParseElement(fields, ObjectText(token, "") + rest) == None
  {
    var afterToken := ", \"Contract\":" + ("}" + rest);
    ObjectTextThen(token, "", rest);
    assert "" + ("}" + rest) == "}" + rest;
    Json.StripPrefixOfConcat("{\"Token\":\"", token + ("\"" + afterToken));
    Json.ParsePlain(token, afterToken);
    Json.StripPrefixOfConcat(", \"Contract\":", "}" + rest);
  }

  /** A token holding a control character before any quote or backslash is
      written raw, so its element is not JSON: no reading of the payload gets
      past it. */
  lemma RawTokenUnreadable(fields: seq<string>, token: string, j: nat, contract: string, rest: string)
    requires j < |token| && token[j] < ' ' && Json.Plain(token[..j])
    ensures ParseElement(fields, ObjectText(token, contract) + rest) == None
  {
    var afterToken := "\", \"Contract\":" + (contract + ("}" + rest));
    assert ObjectText(token, contract) + rest == "{\"Token\":\"" + (token + afterToken);
    Json.StripPrefixOfConcat("{\"Token\":\"", token + afterToken);
    Json.RawControlUnreadable(token, j, afterToken);
  }

  /** A token that spells JSON escapes is written as it is, so the reader
      undoes escapes the writer never made: the token Escape(x) reads back as
      x, a different string whenever x holds a character that is escaped. */
  lemma {:induction false} EscapedTokenMisread(fields: seq<string>, x: string, values: seq<string>, rest: string)
    requires |values| == |fields|
    ensures ParseElement(fields, EntryText(fields, (Json.Escape(x), values)) + rest)
         == Some(((x, values), rest))
  {
    var token := Json.Escape(x);
    var record := Json.Marshal(fields, values);
    var afterRecord := "}" + rest;
    var afterToken := ", \"Contract\":" + (record + afterRecord);
    ObjectTextThen(token, record, rest);
    Json.StripPrefixOfConcat("{\"Token\":\"", token + ("\"" + afterToken));
    ReadEscapedToken(x, afterToken);
    Json.StripPrefixOfConcat(", \"Contract\":", record + afterRecord);
    Json.ParseObjectOfMarshal(fields, values, afterRecord);
    Json.StripPrefixOfConcat("}", rest);
    ParseElementSteps(fields, EntryText(fields, (token, values)) + rest, token + ("\"" + afterToken),
                      x, afterToken, record + afterRecord, values, afterRecord, rest);
  }

  lemma {:induction false} ReadEscapedToken(x: string, after: string)
    ensures Json.ParseStringBody(Json.Escape(x) + ("\"" + after)) == Some((x, after))
  {
    Json.ParseEscaped(x, after);
    QuoteThen(Json.Escape(x), after);
  }

  lemma {:induction false} QuoteThen(t: string, after: string)
    ensures t + "\"" + after == t + ("\"" + after)
  {
  }

  /** The two-character token backslash, n reads back as a line feed. */
  lemma {:induction false} BackslashTokenMisread(fields: seq<string>, values: seq<string>, rest: string)
    requires |values| == |fields|
    ensures ParseElement(fields, EntryText(fields, ("\\n", values)) + rest)
         == Some((("\n", values), rest))
  {
    assert Json.Escape("\n") == "\\n";
    EscapedTokenMisread(fields, "\n", values, rest);
  }

  /** A token holding a quote is cut at its first quote: if the element
      reads at all, the token read is the part before that quote. */
  lemma {:induction false} QuoteTokenCut(fields: seq<string>, x: string, y: string, contract: string, rest: string)
    requires Json.Plain(x)
    ensures var r := ParseElement(fields, ObjectText(x + "\"" + y, contract) + rest);
            r.Some? ==> r.value.0.0 == x
  {
    var token := x + "\"" + y;
    var afterToken := ", \"Contract\":" + (contract + ("}" + rest));
    ObjectTextThen(token, contract, rest);
    assert token + ("\"" + afterToken) == x + ("\"" + (y + ("\"" + afterToken)));
    Json.StripPrefixOfConcat("{\"Token\":\"", token + ("\"" + afterToken));
    Json.ParsePlain(x, y + ("\"" + afterToken));
  }
}

=== FILE: sale_contract.dfy ===
/** The sale-contract chaincode, written once for both record shapes: the
    pharmacy chaincode (four fields, closes its iterator) and the doctor
    chaincode (three fields, never closes it). Send stores a record under its
    token and an index entry under the composite key
    ("patient~token", [patientAddress, token]); QueryByPatientAddress scans
    that index for one patient and returns a JSON array of the records;
    Invoke dispatches on the function name. */
module SaleContract {
  import opened Wrappers
  import Decimal
  import Json
  import opened CompositeKey
  import opened Ledger
  import opened QueryOutput

  /** A record shape: the json tags of Contract's fields in declaration order
      (the token first, the patient address second) and whether the query
      closes its iterator before returning. */
  datatype Variant = Variant(fields: seq<string>, closesIterator: bool)

  type Shape = v: Variant | |v.fields| >= 2 witness Variant(["token", "patientAddress"], false)

  /** sc.Response: shim.Success(payload), shim.Error(message), or a Go
      runtime panic of the chaincode. A nil payload is the empty string. */
  datatype Response = Success(payload: string) | Error(message: string) | Panic(reason: string)

  /** Which stub calls of one transaction fail, and with what error:
      the record's PutState, the index entry's PutState, the partial-key
      scan, the iterator's Next in iteration i, the GetState in iteration i. */
  datatype Faults = Faults(
    recordPut: Option<string>,
    indexPut: Option<string>,
    scan: Option<string>,
    next: map<nat, string>,
    get: map<nat, string>)

  const NoFaults: Faults := Faults(None, None, None, map[], map[])

  const IndexName: string := "patient~token"
  /** The value stored under an index entry: the single byte 0x00. */
  const IndexMarker: string := "\0"

  const PutRecordError: string := "Error putting contract on state: "
  const IndexError: string := "Error associating token to patient: "
  const GetStateError: string := "Error getting state: "
  const ArityPrefix: string := "Wrong number of arguments! Expected "

  /** The message for a call with the wrong number of arguments. */
  function ArityError(expected: nat, got: nat): string {
    ArityPrefix + Decimal.Itoa(expected) + " but got " + Decimal.Itoa(got)
  }

  /** The index entry key for a token sold to a patient. */
  function IndexKey(patient: string, token: string): string {
    Key(IndexName, [patient, token])
  }

  /** Every key, except those in touched, is present with the same value in
      both states or absent from both. */
  ghost predicate AgreeOutside(before: map<string, string>, after: map<string, string>, touched: set<string>) {
    forall k :: k !in touched ==> Lookup(before, k) == Lookup(after, k) && (k in before <==> k in after)
  }

  // ---------------------------------------------------------------- Send

  /** What Send returns and the state it leaves, given the state before. */
  function SendSpec(v: Shape, state: map<string, string>, args: seq<string>, faults: Faults)
    : (r: (Response, map<string, string>))
    // a wrong arity is reported before anything is written
    ensures |args| != |v.fields| ==> r == (Error(ArityError(|v.fields|, |args|)), state)
    // at most the record key and the index key change
    ensures |args| == |v.fields| ==> AgreeOutside(state, r.1, {args[0], IndexKey(args[1], args[0])})
    // a failed record write writes nothing: an empty token is refused by
    // the shim, any other failure comes from the peer
    ensures |args| == |v.fields| && args[0] == "" ==>
              r == (Error(PutRecordError + EmptyKeyMessage), state)
    ensures |args| == |v.fields| && args[0] != "" && faults.recordPut.Some? ==>
              r == (Error(PutRecordError + faults.recordPut.value), state)
    // once the record is written it stays, whatever happens to the index
    ensures |args| == |v.fields| && args[0] != "" && faults.recordPut.None? ==>
              args[0] in r.1 && r.1[args[0]] == Json.Marshal(v.fields, args)
    ensures |args| == |v.fields| && args[0] != "" && faults.recordPut.None? && !r.0.Success? ==>
              r.1 == state[args[0] := Json.Marshal(v.fields, args)]
              && r.0.Error? && IndexError <= r.0.message
    // success: both writes happened, and the payload is the record
    ensures r.0.Success? <==>
              |args| == |v.fields| && args[0] != "" && faults.recordPut.None? && faults.indexPut.None?
              && ValidAttribute(args[1]) && ValidAttribute(args[0])
    ensures r.0.Success? ==>
              && r.0.payload == r.1[args[0]]
              && Json.ReadRecord(v.fields, r.0.payload) == Some(args)
              && IndexKey(args[1], args[0]) in r.1
              && r.1[IndexKey(args[1], args[0])] == IndexMarker
              && SplitCompositeKey(IndexKey(args[1], args[0])) == Some((IndexName, [args[1], args[0]]))
              && r.1 == state[args[0] := r.0.payload][IndexKey(args[1], args[0]) := IndexMarker]
  {
    if |args| != |v.fields| then (Error(ArityError(|v.fields|, |args|)), state)
    else
      AllValidPair(args[1], args[0]);
      var contractBytes := Json.Marshal(v.fields, args);
      var recordErr := PutError(args[0], faults.recordPut);
      if recordErr.Some? then (Error(PutRecordError + recordErr.value), state)
      else
        var written := state[args[0] := contractBytes];
        match CreateCompositeKey(IndexName, [args[1], args[0]])
        case Err(e) => (Error(IndexError + e), written)
        case Ok(key) =>
          assert key[0] == Separator;
          var indexErr := PutError(key, faults.indexPut);
          if indexErr.Some? then (Error(IndexError + indexErr.value), written)
          else
            Json.ReadRecordOfMarshal(v.fields, args);
            SplitOfCreate(IndexName, [args[1], args[0]]);
            assert key != args[0] by {
              if |args[0]| > 0 { assert args[0][0] != Separator; }
            }
            (Success(contractBytes), written[key := IndexMarker])
  }

  /** Send: arity check, the record under its token, then the index entry. */
  method Send(v: Shape, stub: Stub, args: seq<string>, faults: Faults) returns (resp: Response)
    modifies stub
    ensures (resp, stub.state) == SendSpec(v, old(stub.state), args, faults)
  {
    if |args| != |v.fields| {
      return Error(ArityError(|v.fields|, |args|));
    }
    var contractBytes := Json.Marshal(v.fields, args);
    var err := stub.PutState(args[0], contractBytes, faults.recordPut);
    if err.Some? {
      return Error(PutRecordError + err.value);
    }
    var patientTokenKey := CreateCompositeKey(IndexName, [args[1], args[0]]);
    if patientTokenKey.Err? {
      return Error(IndexError + patientTokenKey.error);
    }
    err := stub.PutState(patientTokenKey.value, IndexMarker, faults.indexPut);
    if err.Some? {
      return Error(IndexError + err.value);
    }
    return Success(contractBytes);
  }

  // ---------------------------------------------------------------- Query

  /** What iteration i of the scan loop does with keys[i]: stop the query
      with a response, or emit the token read from the key. */
  datatype Step = Emit(token: string) | Halt(response: Response)

  function StepAt(keys: seq<string>, faults: Faults, i: nat): (s: Step)
    requires i < |keys|
    // an iteration that stops the query never stops it with a success
    ensures s.Halt? ==> !s.response.Success?
    // it emits exactly when Next and GetState succeed and the key splits
    // into at least two attributes, and then it emits the second one
    ensures s.Emit? <==> i !in faults.next && i !in faults.get
                         && SplitCompositeKey(keys[i]).Some? && |SplitCompositeKey(keys[i]).value.1| >= 2
    ensures s.Emit? ==> s.token == SplitCompositeKey(keys[i]).value.1[1]
  {
    if i in faults.next then Halt(Error(GetStateError + faults.next[i]))
    else match SplitCompositeKey(keys[i])
      case None => Halt(Panic("composite key without components"))
      case Some((_, attributes)) =>
        if |attributes| < 2 then Halt(Panic("index out of range"))
        else if i in faults.get then Halt(Error(GetStateError + faults.get[i]))
        else Emit(attributes[1])
  }

  /** The tokens emitted by iterations i, i + 1, ... of the scan loop, or the
      response of the first iteration that stops it. */
  function TokensFrom(keys: seq<string>, faults: Faults, i: nat): (r: Result<seq<string>, Response>)
    requires i <= |keys|
    // one token per remaining key, or a response that is not a success
    ensures r.Ok? ==> |r.value| == |keys| - i
    ensures r.Err? ==> !r.error.Success?
    decreases |keys| - i
  {
    if i == |keys| then Ok([])
    else match StepAt(keys, faults, i)
      case Halt(r) => Err(r)
      case Emit(t) => Prepend([t], TokensFrom(keys, faults, i + 1))
  }

  /** The loop finishes exactly when every remaining iteration emits, and
      then it has emitted each iteration's token, in key order. */
  lemma {:induction false} LoopOutcome(keys: seq<string>, faults: Faults, i: nat)
    requires i <= |keys|
    ensures TokensFrom(keys, faults, i).Ok? <==> forall j :: i <= j < |keys| ==> StepAt(keys, faults, j).Emit?
    ensures TokensFrom(keys, faults, i).Ok? ==>
              forall j :: i <= j < |keys| ==> StepAt(keys, faults, j) == Emit(TokensFrom(keys, faults, i).value[j - i])
    decreases |keys| - i
  {
    if i < |keys| {
      LoopOutcome(keys, faults, i + 1);
      var r := TokensFrom(keys, faults, i);
      var later := TokensFrom(keys, faults, i + 1);
      var step := StepAt(keys, faults, i);
      if step.Emit? {
        assert r == Prepend([step.token], later);
        if later.Ok? {
          assert r.value == [step.token] + later.value;
          forall j | i <= j < |keys|
            ensures StepAt(keys, faults, j) == Emit(r.value[j - i])
          {
            if j > i {
              assert r.value[j - i] == later.value[j - (i + 1)];
            }
          }
        }
      } else {
        assert r == Err(step.response);
      }
    }
  }

  /** When the scan loop stops, it stops at an iteration that halts with
      exactly the returned response, after iterations that all emitted. */
  lemma {:induction false} LoopHalts(keys: seq<string>, faults: Faults, i: nat)
    requires i <= |keys| && TokensFrom(keys, faults, i).Err?
    ensures exists j :: i <= j < |keys| && StepAt(keys, faults, j) == Halt(TokensFrom(keys, faults, i).error)
                        && forall h :: i <= h < j ==> StepAt(keys, faults, h).Emit?
    decreases |keys| - i
  {
    var r := TokensFrom(keys, faults, i);
    var step := StepAt(keys, faults, i);
    if step.Emit? {
      var later := TokensFrom(keys, faults, i + 1);
      assert r == Prepend([step.token], later);
      LoopHalts(keys, faults, i + 1);
      var j :| i + 1 <= j < |keys| && StepAt(keys, faults, j) == Halt(later.error)
               && forall h :: i + 1 <= h < j ==> StepAt(keys, faults, h).Emit?;
      assert StepAt(keys, faults, j) == Halt(r.error);
    } else {
      assert r == Err(step.response);
    }
  }

  function Prepend(ts: seq<string>, r: Result<seq<string>, Response>): Result<seq<string>, Response> {
    match r
    case Ok(rest) => Ok(ts + rest)
    case Err(e) => Err(e)
  }

  /** The array elements for the emitted tokens, each with the bytes
      GetState returns for it (empty for a token with no record). */
  function Objects(state: map<string, string>, tokens: seq<string>): (r: seq<string>)
    ensures |r| == |tokens|
  {
    seq(|tokens|, i requires 0 <= i < |tokens| => ObjectText(tokens[i], Lookup(state, tokens[i])))
  }

  /** The index keys the query for patient visits, in order. */
  ghost function PatientScan(state: map<string, string>, patient: string): seq<string> {
    var start := Key(IndexName, [patient]);
    ScanOrder(state, start, start + [MaxRune])
  }

  /** What QueryByPatientAddress returns. */
  ghost function QuerySpec(state: map<string, string>, args: seq<string>, faults: Faults): (r: Response)
    ensures |args| != 1 ==> r == Error(ArityError(1, |args|))
    // a patient address that cannot be part of a composite key is refused
    ensures |args| == 1 && !ValidAttribute(args[0]) ==> r == Error(GetStateError + InvalidAttributeMessage)
    // a success is a bracketed array, for one valid address and a scan that
    // opened
    ensures r.Success? ==> |args| == 1 && ValidAttribute(args[0]) && faults.scan.None?
                           && |r.payload| >= 2 && r.payload[0] == '[' && r.payload[|r.payload| - 1] == ']'
  {
    if |args| != 1 then Error(ArityError(1, |args|))
    else
      assert AllValid([args[0]]) <==> ValidAttribute(args[0]) by {
        assert [args[0]][0] == args[0];
      }
      match CreateCompositeKey(IndexName, [args[0]])
      case Err(e) => Error(GetStateError + e)
      case Ok(_) =>
        if faults.scan.Some? then Error(GetStateError + faults.scan.value)
        else Respond(state, TokensFrom(PatientScan(state, args[0]), faults, 0))
  }

  /** A query with other than one argument reports the count. */
  lemma QueryArity(state: map<string, string>, args: seq<string>, faults: Faults)
    requires |args| != 1
    ensures QuerySpec(state, args, faults)
         == Error("Wrong number of arguments! Expected 1 but got " + Decimal.Itoa(|args|))
  {
    assert QuerySpec(state, args, faults) == Error(ArityError(1, |args|));
    QueryArityMessage(|args|);
  }

  lemma QueryArityMessage(n: nat)
    ensures ArityError(1, n) == "Wrong number of arguments! Expected 1 but got " + Decimal.Itoa(n)
  {
    assert Decimal.Itoa(1) == "1";
    assert ArityPrefix + "1" + " but got " == "Wrong number of arguments! Expected 1 but got ";
  }

  /** The response for the outcome of the scan loop: the stopping response,
      or the array of the emitted tokens' elements. */
  function Respond(state: map<string, string>, outcome: Result<seq<string>, Response>): (r: Response)
    ensures outcome.Err? ==> r == outcome.error
    ensures outcome.Ok? ==> r.Success? && |r.payload| >= 2 && r.payload[0] == '[' && r.payload[|r.payload| - 1] == ']'
  {
    match outcome
    case Err(r) => r
    case Ok(tokens) => Success(ArrayText(Objects(state, tokens)))
  }

  lemma PrependNothing(r: Result<seq<string>, Response>)
    ensures Prepend([], r) == r
  {
    if r.Ok? {
      assert [] + r.value == r.value;
    }
  }

  lemma ObjectsSnoc(state: map<string, string>, tokens: seq<string>, t: string)
    ensures Objects(state, tokens + [t]) == Objects(state, tokens) + [ObjectText(t, Lookup(state, t))]
  {
  }

  /** An iteration that emits a token keeps the loop's account of the
      tokens: those emitted so far, then those still to come. */
  lemma EmitStep(keys: seq<string>, faults: Faults, i: nat, emitted: seq<string>, t: string)
    requires i < |keys| && StepAt(keys, faults, i) == Emit(t)
    requires Prepend(emitted, TokensFrom(keys, faults, i)) == TokensFrom(keys, faults, 0)
    ensures Prepend(emitted + [t], TokensFrom(keys, faults, i + 1)) == TokensFrom(keys, faults, 0)
  {
    var later := TokensFrom(keys, faults, i + 1);
    if later.Ok? {
      assert emitted + ([t] + later.value) == (emitted + [t]) + later.value;
    }
  }

  /** An iteration that stops the loop decides the query's response. */
  lemma HaltStep(keys: seq<string>, faults: Faults, i: nat, emitted: seq<string>)
    requires i < |keys| && StepAt(keys, faults, i).Halt?
    requires Prepend(emitted, TokensFrom(keys, faults, i)) == TokensFrom(keys, faults, 0)
    ensures TokensFrom(keys, faults, 0) == Err(StepAt(keys, faults, i).response)
  {
  }

  /** The seven writes of one element append ObjectText to the buffer. */
  lemma ElementWrites(buffer: string, t: string, c: string)
    ensures buffer + "{\"Token\":" + "\"" + t + "\"" + ", \"Contract\":" + c + "}"
         == buffer + ObjectText(t, c)
  {
  }

  /** The buffer after writing one more element. */
  lemma BufferStep(state: map<string, string>, emitted: seq<string>, before: string, firstToken: bool, t: string)
    requires before == "[" + Join(Objects(state, emitted))
    requires firstToken <==> |emitted| == 0
    ensures (if firstToken then before else before + ",") + ObjectText(t, Lookup(state, t))
         == "[" + Join(Objects(state, emitted + [t]))
  {
    var objs := Objects(state, emitted);
    var o := ObjectText(t, Lookup(state, t));
    ObjectsSnoc(state, emitted, t);
    JoinSnoc(objs, o);
    if !firstToken {
      assert before + "," + o == "[" + (Join(objs) + "," + o);
    }
  }

  /** The reads of one iteration of the scan loop: the next key from the
      iterator, the token SplitCompositeKey finds in it, and the bytes
      GetState returns for that token; or the response that stops the
      query at this iteration. */
  method NextEntry(stub: Stub, it: StateIterator, faults: Faults) returns (r: Result<(string, string), Response>)
    requires it.HasNext()
    modifies it
    ensures it.closed == old(it.closed)
    ensures r.Ok? ==> it.pos == old(it.pos) + 1
    // a failed Next keeps the position; once Next succeeds the iterator has
    // advanced, whatever the rest of the iteration does
    ensures it.pos == if old(it.pos) in faults.next then old(it.pos) else old(it.pos) + 1
    ensures r.Ok? ==> StepAt(it.keys, faults, old(it.pos)) == Emit(r.value.0)
                      && r.value.1 == Lookup(stub.state, r.value.0)
    ensures r.Err? ==> StepAt(it.keys, faults, old(it.pos)) == Halt(r.error)
  {
    var i := it.pos;
    var compositeKey := it.Next(if i in faults.next then Some(faults.next[i]) else None);
    if compositeKey.Err? {
      return Err(Error(GetStateError + compositeKey.error));
    }
    // the error of SplitCompositeKey is not looked at
    var split := SplitCompositeKey(compositeKey.value);
    if split.None? {
      return Err(Panic("composite key without components"));
    }
    var compositeKeyArgs := split.value.1;
    if |compositeKeyArgs| < 2 {
      return Err(Panic("index out of range"));
    }
    var tokenID := compositeKeyArgs[1];
    var contractBytes := stub.GetState(tokenID, if i in faults.get then Some(faults.get[i]) else None);
    if contractBytes.Err? {
      return Err(Error(GetStateError + contractBytes.error));
    }
    return Ok((tokenID, contractBytes.value));
  }

  /** The loop of QueryByPatientAddress over a fresh iterator: one array
      element per index entry, built in a buffer, closing the iterator after
      the loop when the shape says so. The ledger is only read. */
  method WriteEntries(v: Shape, stub: Stub, it: StateIterator, faults: Faults) returns (resp: Response)
    requires it.pos == 0 && !it.closed
    modifies it
    ensures resp == Respond(stub.state, TokensFrom(it.keys, faults, 0))
    ensures it.closed <==> v.closesIterator && resp.Success?
  {
    var buffer := "[";
    var firstToken := true;
    ghost var emitted: seq<string> := [];
    PrependNothing(TokensFrom(it.keys, faults, 0));
    assert Objects(stub.state, emitted) == [];
    while it.HasNext()
      invariant it.pos <= |it.keys| && !it.closed
      invariant firstToken <==> |emitted| == 0
      invariant buffer == "[" + Join(Objects(stub.state, emitted))
      invariant Prepend(emitted, TokensFrom(it.keys, faults, it.pos)) == TokensFrom(it.keys, faults, 0)
      decreases |it.keys| - it.pos
    {
      var i := it.pos;
      var entry := NextEntry(stub, it, faults);
      if entry.Err? {
        HaltStep(it.keys, faults, i, emitted);
        return entry.error;
      }
      var (tokenID, contractBytes) := entry.value;
      EmitStep(it.keys, faults, i, emitted, tokenID);
      BufferStep(stub.state, emitted, buffer, firstToken, tokenID);

      if !firstToken {
        buffer := buffer + ",";
      }
      ElementWrites(buffer, tokenID, contractBytes);
      buffer := buffer + "{\"Token\":" + "\"" + tokenID + "\"" + ", \"Contract\":" + contractBytes + "}";
      firstToken := false;
      emitted := emitted + [tokenID];
      assert Prepend(emitted, TokensFrom(it.keys, faults, i + 1)) == TokensFrom(it.keys, faults, 0);
    }
    buffer := buffer + "]";
    assert emitted + [] == emitted;
    if v.closesIterator {
      it.Close();
    }
    return Success(buffer);
  }

  /** QueryByPatientAddress: arity check, the partial-key scan, then the
      loop over the index entries. Returns the iterator it opened, if any,
      so that a caller can see whether it was closed. */
  method QueryByPatientAddress(v: Shape, stub: Stub, args: seq<string>, faults: Faults)
    returns (resp: Response, it: StateIterator?)
    ensures resp == QuerySpec(stub.state, args, faults)
    // the iterator is opened, and returned, exactly when the scan is made
    ensures it != null <==> |args| == 1 && ValidAttribute(args[0]) && faults.scan.None?
    ensures it != null ==> fresh(it) && it.keys == PatientScan(stub.state, args[0])
    ensures it != null ==> (it.closed <==> v.closesIterator && resp.Success?)
  {
    it := null;
    if |args| != 1 {
      return Error(ArityError(1, |args|)), it;
    }
    assert AllValid([args[0]]) <==> ValidAttribute(args[0]) by {
      assert [args[0]][0] == args[0];
    }
    var scan := stub.GetStateByPartialCompositeKey(IndexName, [args[0]], faults.scan);
    if scan.Err? {
      return Error(GetStateError + scan.error), it;
    }
    it := scan.value;
    assert QuerySpec(stub.state, args, faults) == Respond(stub.state, TokensFrom(it.keys, faults, 0));
    resp := WriteEntries(v, stub, it, faults);
  }

  // ---------------------------------------------------------------- Invoke

  datatype Operation = SendOp | QueryOp | Ignored

  /** The switch of Invoke: only "send" and "query" name an operation. */
  function Route(fcn: string): (op: Operation)
    ensures op == SendOp <==> fcn == "send"
    ensures op == QueryOp <==> fcn == "query"
  {
    if fcn == "send" then SendOp else if fcn == "query" then QueryOp else Ignored
  }

  /** Invoke: runs the operation named by fcn; any other name succeeds with
      an empty payload and changes nothing. */
  method Invoke(v: Shape, stub: Stub, fcn: string, params: seq<string>, faults: Faults)
    returns (resp: Response)
    modifies stub
    ensures Route(fcn) == SendOp ==> (resp, stub.state) == SendSpec(v, old(stub.state), params, faults)
    ensures Route(fcn) == QueryOp ==>
              resp == QuerySpec(old(stub.state), params, faults) && stub.state == old(stub.state)
    ensures Route(fcn) == Ignored ==> resp == Success("") && stub.state == old(stub.state)
  {
    match Route(fcn)
    case SendOp =>
      resp := Send(v, stub, params, faults);
    case QueryOp =>
      var unused;
      resp, unused := QueryByPatientAddress(v, stub, params, faults);
    case Ignored =>
      resp := Success("");
  }
}

=== FILE: wrappers.dfy ===
/** Option and Result, the failure-carrying values used throughout the model. */
module Wrappers {

  datatype Option<+T> = None | Some(value: T)

  /** The outcome of a call that either produces a value or fails with a message. */
  datatype Result<+R, +E> = Ok(value: R) | Err(error: E)
}
